=== FILE: README.md ===
# video-transcriber: the job worker, its progress record and row assembly

This project models the core of the video-transcriber service. A web form uploads videos and submits a job. A queue worker runs `process_job` on the job's video files: for each file it extracts audio, transcribes it, extracts frames and writes a DOCX document. After every step it reports progress to a Redis hash `job:<id>` through `update_progress`. Clients read that hash with `get_progress` or through the HTTP endpoint `/api/jobs/<id>`.

The model covers three parts:

- **The progress record** (module `JobStore`). `update_progress` drops `None` arguments. It stores `str(v)` for every field except `result_index`, which it stores as `json.dumps(v)`. It merges the fields into the job's hash, and it makes no write when no field is left. `get_progress` returns the whole hash. The submission endpoint writes the initial record. `Decimal` models Python's `str(int)` and `02d`. `Json` models `json.dumps` of the result list, together with readers that recover the values.
- **The worker** (modules `Schedule`, `Worker`, `WorkerTrace`, `JobTrace`, `JobRecords`, `FrameWiring`). `Schedule` computes the percentages in exact integer arithmetic, which can differ by one from the source's floating-point values (see "## Left out"). `Worker` gives the sequence of `update_progress` calls for every file list and every combination of stage outcomes: the same calls, messages and fields as the source, with the progress values of the exact schedule. A stage that raises ends the job. `PosixPath` models `Path.name`. The other modules prove what the calls leave in the record: bounds and monotonicity of progress, the terminal record of a completed job and of a job that raised, the result index reading back, and no other job being touched.
- **Row assembly in `app/processing.py`** (module `Processing`). It covers `format_mmss`, the second each extracted frame stands for, the caption window of a segment, first-occurrence deduplication, the Vision column and the rows of `process_video_to_rows`.

Each external stage is a function parameter: ffmpeg, Whisper, the BLIP captioner and the DOCX writer. A stage that raises is modelled as a stage that returns `None`.

## Model

| member | source | states |
|---|---|---|
| JobStore.UpdateProgress | app/progress.py:6-12 | An update with every argument None leaves the store unchanged. Every other job's hash is kept as it was. Each field of the job's hash afterwards is the encoded argument when one was given, and the old value otherwise. |
| JobStore.EncodeRoundTrip | app/progress.py:8-10 | The fields one call writes decode back to exactly its arguments: a None argument writes no field, `str(int)` reads back as the int, and the `json.dumps` text reads back as the result list. |
| JobStore.EncodeEmptyIffNoFields | app/progress.py:9-11 | The call writes nothing exactly when every argument is None. |
| JobStore.NoneArgumentKeepsField | app/progress.py:9 | A field whose argument is None keeps its stored value, and `total_files` is never touched by an update. |
| JobStore.UpdateIdempotent | app/progress.py:12 | Applying the same update twice leaves the store as applying it once, because HSET merges. |
| JobStore.UpdateIsolatesJobs | app/progress.py:12 | An update for job a never changes what job b reads. |
| JobStore.JobKeyInjective | app/progress.py:12 | Distinct job ids have distinct hash keys `job:<id>`. |
| JobStore.GetProgress | app/progress.py:14-15 | The job's whole hash, or an empty mapping when nothing was ever written for the job. |
| JobStore.InitialRecord | app/main.py:39-46 | The submitted record has exactly six fields: the five that `update_progress` can write, plus `total_files`. |
| JobStore.InitialRecordReadsBack | app/main.py:39-46 | In the submitted record, `total_files` parses back as the number of files, progress and done_files parse back as 0, and the result index reads back as the empty list. |
| JobStore.Submit | app/main.py:39-46 | The submission's HSET adds the job's key and changes no other key. The six initial fields overwrite the job's hash, and any other field it held stays. |
| JobStore.SubmittedRecord | app/main.py:38-46 | After submission the job's hash holds queued, "0", "0", `str(n)`, "Queued" and "[]", whatever the key held before. |
| JobStore.ReplayField | app/progress.py:6-12 | After a sequence of updates, each field holds the value of the last update that wrote it, or its value from before the sequence. |
| JobStore.ReplayIsolatesJobs | app/progress.py:12 | A sequence of updates for job a leaves job b's hash unchanged. |
| Decimal.IntToString | app/progress.py:10 | `str(i)` is non-empty, starts with '-' exactly for a negative `i`, and is all digits otherwise. |
| Decimal.IntToStringRoundTrip | app/progress.py:10 | `str(i)` parses back to `i` for every integer, negative ones included. |
| Decimal.IntToStringInjective | app/progress.py:10 | Distinct integers are stored as distinct texts. |
| Decimal.ZeroPad2 | app/processing.py:21 | `format(n, "02d")` has at least two digits, has exactly two below 100, reads back as `n`, and starts with '0' exactly when n < 10. |
| Json.DumpEntries | app/progress.py:10 | The `json.dumps` text of the result list is bracketed by '[' and ']', and it is "[]" exactly for the empty list. |
| Json.DumpEntriesRoundTrip | app/progress.py:10 | The `json.dumps` text of the result list, with ASCII escapes and surrogate pairs above U+FFFF, reads back as the list. |
| Json.DumpEntriesInjective | app/progress.py:10 | Two result lists are stored as the same text exactly when they are equal. |
| PosixPath.Name | app/worker.py:27 | `Path(p).name` is no longer than the path. |
| PosixPath.NameIsComponent | app/worker.py:27 | `Path(p).name` never contains a '/' and is never ".". |
| PosixPath.NameOfJoin | app/worker.py:27 | The name of `dir/n` is `n` for a proper file name `n`, as for the upload paths built at app/main.py:34. |
| PosixPath.NameIgnoresTrailingSlash | app/worker.py:27 | A trailing separator does not change the name. |
| Schedule.FileValuesNonDecreasing | app/worker.py:28-75 | Within one file, the four stage values and the completion value never go down. |
| Schedule.StageValue | app/worker.py:28-54 | `base + int(step·p)` lies in file k's slice: at least its start `⌊(k-1)·100/n⌋`, and for p ≤ 100% at most the file's completion value. |
| Schedule.Completion | app/worker.py:28-74 | `base + step` never passes `⌊k·100/n⌋`, the start of the next file's slice, and never passes 100. |
| Schedule.CompletionBeforeNextFile | app/worker.py:28-74 | The completion value of file k is at most file k+1's first stage value. |
| Schedule.SliceOrder | app/worker.py:28-75 | The order of the values around file k's slice: its first stage value, its completion value, the next file's first stage value, then 100. |
| Schedule.StartBelowFirstStageIff | app/worker.py:18-33 | The "Job started" value 5 is at most file 1's first stage value exactly when the job has at most four files. |
| Schedule.LastCompletionIs100Iff | app/worker.py:28-74 | The last file's completion value is 100 exactly when n divides 100. |
| Worker.ProcessFile | app/worker.py:36-62 | One file's stages either produce a document path or raise at stage 1 to 4: audio, transcription, frames or DOCX. |
| Worker.FileCall | app/worker.py:31-75 | Each of a file's five calls leaves status and result_index alone and writes progress. The four stage calls write a message and no done_files. The completion call writes done_files = k and no message. Every value lies between the file's first stage value and its completion value. |
| Worker.FileUpdates | app/worker.py:31-75 | One file makes exactly five `update_progress` calls. |
| Worker.RunFiles | app/worker.py:26-75 | The loop from file i completes exactly when every remaining file produced. Entry j of its results is the name and document of file i+j. When it stops early, the file after the last result raised. |
| Worker.JobRun | app/worker.py:11-83 | A job completes exactly when every file produced. It has at most one result per file and exactly one per file when it completes, in input order, each the file's name and document path. |
| Worker.ResultsMatchAt | app/worker.py:64-69 | Result j of the run starting at file i belongs to file i+j. |
| Worker.ProcessJob | app/worker.py:11-83 | `process_job` with the given stage functions completes exactly when every file's stages return, and then has one result per file. |
| WorkerTrace.FileUpdatesProgress | app/worker.py:31-75 | A file's five calls all write progress, never go down, and stay between its first stage value and its completion value. |
| WorkerTrace.RunFilesProgress | app/worker.py:26-75 | The loop's progress values never go down and lie between file i+1's first stage value and 100. |
| WorkerTrace.RunFilesLoopCalls | app/worker.py:31-75 | The loop's calls never write status or result_index. |
| WorkerTrace.RunFilesShape | app/worker.py:26-75 | The loop's calls are the five calls of each completed file, then the calls of the raising file up to its raising stage. |
| JobTrace.ProgressWithinBounds | app/worker.py:18-83 | Every call of the job writes a progress value between 0 and 100. |
| JobTrace.ProgressNonDecreasingAfterStart | app/worker.py:26-83 | From the first stage update on, progress never goes down. |
| JobTrace.SecondCall | app/worker.py:18-35 | For a job with files, the first call is "Job started" and the second writes file 1's first stage value. |
| JobTrace.LargeJobDips | app/worker.py:18-33 | With five or more files, the second call's progress is below the "Job started" value 5. |
| JobTrace.ProgressNonDecreasingIff | app/worker.py:18-83 | The whole progress sequence is non-decreasing exactly when the job has at most four files. |
| JobRecords.RecordAfterFile | app/worker.py:18-75 | After file k's completion call, the record is "running", with k files done, the submitted total, result index "[]", and the progress and message of that moment. |
| JobRecords.FinalRecordCompleted | app/worker.py:77-83 | A completed job leaves "done", "100", "All files processed", done_files and total_files equal to n, and the JSON of its results. |
| JobRecords.ResultIndexReadsBack | app/worker.py:64-83 | A completed job's stored result index reads back as one entry per input file, in input order: the file's name and its document path. |
| JobRecords.FinalRecordRaised | app/worker.py:31-62 | When file c+1 raises, the record stays "running" with result index "[]", c files done, and the progress and message of the stage announcement before the raise. |
| JobRecords.RunningUntilTerminal | app/worker.py:18-75 | Before the terminal call, every record shows "running", result index "[]" and the submitted total. |
| JobRecords.ObservedProgress | app/worker.py:18-83 | After m calls, the record's progress text parses back to the m-th call's value, which lies between 0 and 100. |
| JobRecords.ObservedProgressNonDecreasing | app/worker.py:26-83 | From the first stage update on, the progress a client reads never goes down. |
| JobRecords.OtherJobsUntouched | app/worker.py:11-83 | A job's calls leave every other job's record as it was. |
| FrameWiring.AsWiredFileRaises | app/worker.py:50 | With the frame call as written, every file raises at or before the frame stage. |
| FrameWiring.AsWiredNeverCompletes | app/worker.py:50 | With the frame call as written, a job with a file never completes: no result is written, and the record stays "running", "[]", with 0 files done. |
| FrameWiring.ProcessJobCompletes | app/worker.py:11-83 | With a frame call that returns, a job whose stages all return ends "done" at 100 with every file counted and one result per file, in input order. |
| Processing.FormatMmss | app/processing.py:18-21 | The timestamp is all digits. Its last two digits are the seconds within the minute, and the digits before them are the whole minutes. It has exactly four digits below 100 minutes, and no leading zero when it is longer. Together these fix the text. |
| Processing.MmssReadsExactlyFormat | app/processing.py:18-21 | A text reads as time t exactly when it is the timestamp written for t. The reader takes the last two digits as seconds below 60 and the rest as minutes without extra padding. |
| Processing.ParsedIsFormatted | app/processing.py:18-21 | Any text the reader accepts is the timestamp written for the time it reads. |
| Processing.FormatMmssRoundTrip | app/processing.py:18-21 | Reading the timestamp gives back the time. |
| Processing.FormatMmssExamples | app/processing.py:18-21 | 65 s is written "0105", and 6000 s (100 minutes) is written "10000". |
| Processing.FormatMmssInjective | app/processing.py:18-21 | Distinct times give distinct timestamps. |
| Processing.FrameSeconds | app/processing.py:35-49 | An interval of 0 fails with ZeroDivisionError. Otherwise there is one frame per image, in listing order, each keeping its path. |
| Processing.FrameSecondsIncreasing | app/processing.py:49 | For a positive interval, the seconds start at 0, strictly increase, and divide by the interval to give each frame's position. |
| Processing.Captions | app/processing.py:93-96 | One caption per frame, at the frame's second, holding the captioner's text for the frame's path. |
| Processing.Visible | app/processing.py:100 | The window never has more texts than there are captions. It is empty when no caption is in range. When every caption is in range, it holds every caption's text, in caption order. |
| Processing.VisibleConcat | app/processing.py:100 | Filtering keeps caption order: the window of two runs of captions is the window of the first followed by that of the second. |
| Processing.VisibleMembers | app/processing.py:100 | A text is in a segment's window exactly when some caption whose second lies in `[int(start), int(end)]` carries it. |
| Processing.Dedup | app/processing.py:101-104 | No empty text, no repeats, and a text is kept exactly when it occurs and is non-empty. |
| Processing.DedupLoop | app/processing.py:101-104 | The loop as written computes `Dedup`. |
| Processing.DedupFirstOccurrenceOrder | app/processing.py:101-104 | The kept texts appear in the order of their first occurrence. |
| Processing.DedupOfDistinct | app/processing.py:101-104 | A list without empty texts or repeats passes through unchanged. |
| Processing.DedupPrefix | app/processing.py:101-104 | What the loop keeps from a list stays in front, unchanged, when the list is extended. |
| Processing.DedupIdempotent | app/processing.py:101-104 | Deduplicating twice is deduplicating once. |
| Processing.Vision | app/processing.py:109 | "No major visual change." when nothing is kept; the single text when one is kept; otherwise the first two texts joined by a space. |
| Processing.BuildRows | app/processing.py:98-113 | One row per segment. |
| Processing.BuildRowsAt | app/processing.py:98-113 | Row i depends only on segment i and the captions. |
| Processing.BuildRowsConcat | app/processing.py:98-113 | The rows of two runs of segments are the rows of each, one after the other. |
| Processing.RowFor | app/processing.py:106-111 | A row's Time reads back as the segment's start, which by `MmssReadsExactlyFormat` makes it exactly `format_mmss(start)`. Its Sound is the segment's text and its Compliance is empty. |
| Processing.RowVision | app/processing.py:100-109 | When every caption in the window is empty, Vision is the fixed text. Otherwise Vision is the first caption, in caption order, that lies in the window and has text. If a later such caption has a different text, the first one of those follows after one space. |
| Processing.VisionFirstTwo | app/processing.py:100-109 | Vision is the first non-empty caption text in the window when every later one repeats it. Otherwise it is that text, a space, and the next distinct non-empty text. |
| Processing.CaptionPairExample | app/processing.py:100-109 | A segment over seconds 8 to 12, with "a" at 8 and "b" at 12, gets Vision "a b". |
| Processing.CaptionWindowExample | app/processing.py:100-109 | A concrete window: captions at seconds 8, 12 and 15 around a 10-14 segment. Only the 12 s caption is used. |
| Processing.VideoRows | app/processing.py:88-113 | Processing fails exactly for a zero interval. Otherwise it gives one row per segment. |
| Processing.VideoRowsContent | app/processing.py:93-113 | Row i's Time reads back as segment i's start, so it is exactly `format_mmss` of that start. Its Sound is the segment's text and its Compliance is empty. When no frame at a second `j·every` inside the segment has a non-empty caption, its Vision is the fixed text. When some such frame has one, its Vision starts with such a caption. `VideoRowsVision` gives the whole text. |
| Processing.VideoRowsVision | app/processing.py:93-113 | Frame j's caption stands at second j·every. Row i's Vision is the caption of the first frame inside the segment whose caption has text. When a later such frame has a different caption, the first of those follows after one space. |
| Processing.RowOfFrames | app/processing.py:93-113 | Row i is the row for segment i, built over the frames' captions with frame j at second j·every. |

## Left out

- Redis, the HTTP layer, the queue and concurrency. The store is a map from keys to records, and concurrent writers to the same hash are not modelled.
- `get_current_job().id` is taken to be the `job_id` given at submission (app/main.py:49). RQ's `enqueue` uses the `job_id` keyword as the job's id and does not pass it to `process_job`.
- ffmpeg, Whisper, the BLIP captioner and the DOCX writer are function parameters. `extract_audio`, `transcribe_whisper`, `transcribe_audio`, `generate_docx` and the `VisionCaptioner` class are not modelled beyond their results. app/docx_export.py is not part of this model.
- Processing.FrameSeconds: the model treats every non-zero interval as success. `run` raises RuntimeError when ffmpeg exits non-zero (app/processing.py:12-15, 40-46), for example for a negative interval, where `fps` is negative. ffmpeg's outcome is not modelled.
- Processing.VideoRows: the same applies. Its `Failure <==> every == 0` holds only when ffmpeg and the audio steps succeed.
- Processing.Captions: the captioner is a total function `caption: string -> string`. `Image.open` and the model can raise, and that exception is not modelled.
- Processing.FrameSeconds takes the image paths in the order given. That order stands for the sorted glob listing (app/processing.py:48), which is not modelled.
- Processing.Segment: times are whole seconds `int(start)` and `int(end)` as naturals. `format_mmss` receives the float `seg["start"]`. Its result equals `FormatMmss(int(start))` only for `start >= 0`, so negative start times are not modelled.
- Strings are sequences of Unicode scalar values. Python strings can hold lone surrogates, which a Dafny `char` cannot, so `json.dumps` of such strings is not modelled.
- Schedule.StageValue computes `base` exactly as `⌊(k-1)·100/n⌋`. The source computes `int(((index-1)/total_files)*100)` in floating point (app/worker.py:28), which is sometimes one lower. For example, for n = 100 and k = 30, `(29/100)*100` is 28.999999999999996, so the source's base is 28 and the model's is 29. Other pairs include (n, k) = (50, 30), (100, 58), (100, 59), (150, 88), (200, 59), (200, 115) and (200, 117). The step `int(100/n)` and the four stage offsets `int(step*0.2)`, `int(step*0.4)`, `int(step*0.6)` and `int(step*0.85)` agree with their exact floors for every step from 0 to 100.
- Schedule.Completion: the same applies, since it adds the step to that base.
- Schedule.CompletionBeforeNextFile holds for the exact schedule only. In the source, file 29 of 100 completes at 29 (float base 28 plus step 1), and file 30's first stage writes 28 (float base 28).
- Schedule.SliceOrder holds for the exact schedule only. Its clause that file k's completion value is at most file k+1's first stage value fails in the source for the (n, k) above where progress drops.
- WorkerTrace.RunFilesProgress holds for the exact schedule only. The source's loop writes a lower value after a higher one when the float base drops. For example, for n = 100 the source writes 29 then 28 at the start of file 30, and 57 then 56 at the start of file 58. For n = 50 it writes 58 then 57 at the start of file 30.
- JobTrace.ProgressNonDecreasingAfterStart holds for the exact schedule only, for the same reason as WorkerTrace.RunFilesProgress.
- JobRecords.ObservedProgressNonDecreasing states the same property for what a client reads, so it too holds only for the exact schedule.
- Worker.ProcessJob writes the exact schedule's progress values. Where the float base is one lower, as described under Schedule.StageValue, the source writes values one lower. The order of calls, the messages and the other fields are the same.
- JobStore.Update holds the five keywords that `process_job` passes to `update_progress` (app/worker.py:18-83): status, progress, message, done_files and result_index. `update_progress(job_id, **kwargs)` accepts any keyword, so a call from other code could write any field. JobStore.NoneArgumentKeepsField's clause that `total_files` is never touched holds only because of this restriction.
- `process_job` imports its stage functions from the `app/processing/` modules (app/worker.py:5-8), and app/processing.py defines functions with the same names. Which one Python loads depends on whether `app/processing/` is a regular package. The model assumes it is, as the finding below does; otherwise the import fails before any job runs.

## Findings

| source | as written | input that shows it | evidently intended | confidence | as-written member | corrected member |
|---|---|---|---|---|---|---|
| app/worker.py:50 | `extract_frames(video_path, interval=frame_interval)` omits `output_dir`, which app/processing/frames.py:4 requires, so every call raises TypeError before ffmpeg runs. This assumes `app/processing/` is a regular package; otherwise the import at app/worker.py:5-8 fails even earlier. | any job with at least one video file | pass a frames directory, so the frame stage returns and the job can reach "done" | not executed | FrameWiring.AsWiredNeverCompletes | FrameWiring.ProcessJobCompletes |

=== FILE: arith.dfy ===
/** Facts about multiplication and Euclidean division on integers. */
module Arith {
  lemma MulMonotone(a: int, b: int, d: int)
    requires d >= 0 && a <= b
    ensures a * d <= b * d
  {
    assert b * d - a * d == (b - a) * d;
  }

  lemma DivLowerBound(x: int, y: int, d: int)
    requires d > 0 && x * d <= y
    ensures x <= y / d
  {
    var q := y / d;
    if q < x {
      MulMonotone(q + 1, x, d);
    }
  }

  lemma DivOfDecomposition(y: int, d: int, q: int, r: int)
    requires d > 0 && y == q * d + r && 0 <= r < d
    ensures y / d == q
  {
    var q' := y / d;
    if q' < q {
      MulMonotone(q' + 1, q, d);
    } else if q < q' {
      MulMonotone(q + 1, q', d);
    }
  }

  lemma DivMonotone(a: int, b: int, d: int)
    requires d > 0 && a <= b
    ensures a / d <= b / d
  {
    assert (a / d) * d <= a;
    DivLowerBound(a / d, b, d);
  }

  lemma DivSumLower(a: nat, b: nat, d: nat)
    requires d > 0
    ensures a / d + b / d <= (a + b) / d
  {
    assert (a / d) * d <= a && (b / d) * d <= b;
    assert (a / d + b / d) * d == (a / d) * d + (b / d) * d;
    DivLowerBound(a / d + b / d, a + b, d);
  }

  /** Multiplying by a positive divisor and dividing again gives the
      number back, with no remainder. */
  lemma MulDivCancel(i: int, d: int)
    requires d > 0
    ensures (i * d) / d == i && (i * d) % d == 0
  {
    DivOfDecomposition(i * d, d, i, 0);
  }

  lemma PositiveProduct(a: int, b: int)
    requires a > 0 && b > 0
    ensures a * b > 0
  {
    MulMonotone(1, a, b);
  }
}

=== FILE: decimal.dfy ===
/** Decimal text of integers as Python writes it: `str(n)` and the `02d`
    format specifier, together with the readers that recover the number. */
module Decimal {
  import opened Wrappers
  import Arith

  predicate IsDigit(c: char) {
    '0' <= c <= '9'
  }

  predicate AllDigits(s: string) {
    forall i :: 0 <= i < |s| ==> IsDigit(s[i])
  }

  function DigitChar(d: nat): (c: char)
    requires d < 10
    ensures IsDigit(c)
    ensures c as int - '0' as int == d
  {
    "0123456789"[d]
  }

  function DigitValue(c: char): (d: nat)
    requires IsDigit(c)
    ensures d < 10
  {
    c as int - '0' as int
  }

  /** The value of a string of decimal digits, leading zeros allowed. */
  function DigitsValue(s: string): nat
    requires AllDigits(s)
  {
    if |s| == 0 then 0 else DigitsValue(s[..|s| - 1]) * 10 + DigitValue(s[|s| - 1])
  }

  /** Python's `str(n)` for a non-negative int: no sign, no leading zero. */
  function NatToString(n: nat): (s: string)
    ensures 1 <= |s|
    ensures AllDigits(s)
    ensures |s| > 1 ==> s[0] != '0'
    ensures n < 10 <==> |s| == 1
    ensures 10 <= n < 100 ==> |s| == 2
    ensures n >= 100 ==> |s| >= 3
    decreases n
  {
    if n < 10 then [DigitChar(n)] else NatToString(n / 10) + [DigitChar(n % 10)]
  }

  lemma {:induction false} NatToStringValue(n: nat)
    ensures DigitsValue(NatToString(n)) == n
    decreases n
  {
    if n >= 10 {
      NatToStringValue(n / 10);
      var s := NatToString(n);
      assert s[..|s| - 1] == NatToString(n / 10);
    }
  }

  /** Python's `str(i)` for any int: a leading '-' for negative values. */
  function IntToString(i: int): (s: string)
    ensures 1 <= |s|
    ensures s[0] == '-' <==> i < 0
    ensures i >= 0 ==> AllDigits(s)
  {
    if i < 0 then "-" + NatToString(-i) else NatToString(i)
  }

  /** Reads back an optionally signed decimal; None for anything else. */
  function ParseInt(s: string): Option<int> {
    if |s| >= 2 && s[0] == '-' && AllDigits(s[1..]) then
      var v: int := 0 - DigitsValue(s[1..]) as int;
      Some(v)
    else if |s| >= 1 && AllDigits(s) then Some(DigitsValue(s))
    else None
  }

  lemma IntToStringRoundTrip(i: int)
    ensures ParseInt(IntToString(i)) == Some(i)
  {
    if i < 0 {
      NegativeRoundTrip(-i);
    } else {
      NatRoundTrip(i);
    }
  }

  lemma NegativeRoundTrip(n: nat)
    requires n > 0
    ensures ParseInt("-" + NatToString(n)) == Some(0 - n as int)
  {
    var s := "-" + NatToString(n);
    NatToStringValue(n);
    assert s[1..] == NatToString(n);
  }

  lemma NatRoundTrip(n: nat)
    ensures ParseInt(NatToString(n)) == Some(n)
  {
    var s := NatToString(n);
    NatToStringValue(n);
    assert IsDigit(s[0]);
  }

  /** Distinct integers are stored as distinct strings. */
  lemma IntToStringInjective(i: int, j: int)
    ensures IntToString(i) == IntToString(j) <==> i == j
  {
    if IntToString(i) == IntToString(j) {
      IntToStringRoundTrip(i);
      IntToStringRoundTrip(j);
    }
  }

  /** Python's `format(n, "02d")` for n >= 0: at least two digits, zero-padded. */
  function ZeroPad2(n: nat): (s: string)
    ensures 2 <= |s|
    ensures n < 100 <==> |s| == 2
    ensures AllDigits(s)
    ensures DigitsValue(s) == n
    ensures s[0] == '0' <==> n < 10
  {
    NatToStringValue(n);
    if n < 10 then
      var s := "0" + NatToString(n);
      assert s[..|s| - 1] == "0";
      s
    else NatToString(n)
  }

  /** Digit strings of the same length and the same value are equal. */
  lemma {:induction false} DigitsValueInjective(a: string, b: string)
    requires AllDigits(a) && AllDigits(b) && |a| == |b|
    requires DigitsValue(a) == DigitsValue(b)
    ensures a == b
    decreases |a|
  {
    if |a| > 0 {
      var fa, fb := a[..|a| - 1], b[..|b| - 1];
      Arith.DivOfDecomposition(DigitsValue(a), 10, DigitsValue(fa), DigitValue(a[|a| - 1]));
      Arith.DivOfDecomposition(DigitsValue(b), 10, DigitsValue(fb), DigitValue(b[|b| - 1]));
      DigitsValueInjective(fa, fb);
      assert a[|a| - 1] == b[|b| - 1];
      assert a == fa + [a[|a| - 1]] && b == fb + [b[|b| - 1]];
    }
  }

  /** Two digits never reach 100. */
  lemma TwoDigitsBelow100(s: string)
    requires AllDigits(s) && |s| == 2
    ensures DigitsValue(s) < 100
  {
    assert s[..1][..0] == [];
    assert DigitsValue(s[..1]) < 10;
  }

  /** A non-empty digit string that does not start with '0' has a
      positive value. */
  lemma {:induction false} DigitsValuePositive(s: string)
    requires AllDigits(s) && 1 <= |s| && s[0] != '0'
    ensures DigitsValue(s) > 0
    decreases |s|
  {
    if |s| == 1 {
      assert s[..0] == [];
    } else {
      var front := s[..|s| - 1];
      assert front[0] == s[0];
      DigitsValuePositive(front);
    }
  }

  /** A digit string without a leading zero is exactly what `str` writes
      for its value. */
  lemma {:induction false} DigitsCanonical(s: string)
    requires AllDigits(s) && 1 <= |s| && (|s| == 1 || s[0] != '0')
    ensures s == NatToString(DigitsValue(s))
    decreases |s|
  {
    var n := DigitsValue(s);
    if |s| == 1 {
      assert s[..0] == [] && DigitsValue(s[..0]) == 0;
      assert n == DigitValue(s[0]);
      assert s[0] == DigitChar(n);
    } else {
      var front := s[..|s| - 1];
      assert front[0] == s[0];
      DigitsCanonical(front);
      DigitsValuePositive(front);
      Arith.DivOfDecomposition(n, 10, DigitsValue(front), DigitValue(s[|s| - 1]));
      assert s[|s| - 1] == DigitChar(n % 10);
      assert s == front + [s[|s| - 1]];
    }
  }
}

=== FILE: frame_wiring.dfy ===
/** The frame stage as `app/worker.py` wires it. Its call
    `extract_frames(video_path, interval=frame_interval)` does not pass
    `output_dir`, which `extract_frames` in `app/processing/frames.py`
    requires, so Python raises TypeError on every call and no job with a
    file ever gets past its frame stage. `AsWired` models that call;
    `ProcessJob` with stage functions that can return models the call
    with the output directory supplied. */
module FrameWiring {
  import opened Wrappers
  import Decimal
  import Json
  import opened JobStore
  import PosixPath
  import Schedule
  import opened Worker
  import opened JobRecords

  /** The stage functions with the frame call as written: it always
      raises. */
  function AsWired<Audio, Transcript, Frames>(stages: Stages<Audio, Transcript, Frames>): Stages<Audio, Transcript, Frames> {
    stages.(extractFrames := (videoPath: string, interval: int) => None)
  }

  /** As wired, no file reaches `generate_docx`. */
  lemma AsWiredFileRaises<Audio, Transcript, Frames>(
    stages: Stages<Audio, Transcript, Frames>, outputDir: string, frameInterval: int, videoPath: string)
    ensures var o := ProcessFile(AsWired(stages), outputDir, frameInterval, videoPath);
            o.Raised? && o.stage <= 3
  {
  }

  /** As wired, a job with at least one file never completes: it writes no
      result, and its record stays "running" with result index "[]" and no
      file done, whatever the other stages do. */
  lemma AsWiredNeverCompletes<Audio, Transcript, Frames>(
    store: Store, jobId: string, stages: Stages<Audio, Transcript, Frames>,
    videoPaths: seq<string>, outputDir: string, frameInterval: int)
    requires |videoPaths| >= 1
    ensures var os := Outcomes(AsWired(stages), videoPaths, outputDir, frameInterval);
            var run := JobRun(videoPaths, os);
            var rec := RecordAfter(store, jobId, videoPaths, os, |run.updates|);
            && run == ProcessJob(AsWired(stages), videoPaths, outputDir, frameInterval)
            && !run.completed && run.results == []
            && Field(rec, StatusField) == Some("running")
            && Field(rec, ResultIndexField) == Some("[]")
            && Field(rec, DoneFilesField) == Some(Decimal.IntToString(0))
  {
    var wired := AsWired(stages);
    var os := Outcomes(wired, videoPaths, outputDir, frameInterval);
    var run := JobRun(videoPaths, os);
    AsWiredFileRaises(stages, outputDir, frameInterval, videoPaths[0]);
    assert os[0] == ProcessFile(wired, outputDir, frameInterval, videoPaths[0]);
    assert !run.completed;
    FinalRecordRaised(store, jobId, videoPaths, os);
  }

  /** With the frame call wired to return, a job whose stage calls all
      return ends "done" at 100 with every file counted and one result
      entry per file, in input order. */
  lemma ProcessJobCompletes<Audio, Transcript, Frames>(
    store: Store, jobId: string, stages: Stages<Audio, Transcript, Frames>,
    videoPaths: seq<string>, outputDir: string, frameInterval: int)
    requires forall j :: 0 <= j < |videoPaths| ==> ProcessFile(stages, outputDir, frameInterval, videoPaths[j]).Produced?
    ensures var os := Outcomes(stages, videoPaths, outputDir, frameInterval);
            var run := JobRun(videoPaths, os);
            var rec := RecordAfter(store, jobId, videoPaths, os, |run.updates|);
            && run == ProcessJob(stages, videoPaths, outputDir, frameInterval)
            && run.completed
            && Field(rec, StatusField) == Some("done")
            && Field(rec, ProgressField) == Some(Decimal.IntToString(Schedule.FinalProgress))
            && Field(rec, DoneFilesField) == Some(Decimal.IntToString(|videoPaths|))
            && Field(rec, ResultIndexField).Some?
            && Json.ReadEntries(Field(rec, ResultIndexField).value) == Some(run.results)
            && |run.results| == |videoPaths|
            && forall j :: 0 <= j < |videoPaths| ==>
                 run.results[j].video == PosixPath.Name(videoPaths[j])
  {
    var os := Outcomes(stages, videoPaths, outputDir, frameInterval);
    var run := JobRun(videoPaths, os);
    assert forall j :: 0 <= j < |videoPaths| ==> os[j] == ProcessFile(stages, outputDir, frameInterval, videoPaths[j]);
    assert run.completed;
    FinalRecordCompleted(store, jobId, videoPaths, os);
    ResultIndexReadsBack(store, jobId, videoPaths, os);
  }
}

=== FILE: job_records.dfy ===
/** The record `job:<id>` a client reads while the worker runs: what the
    submission wrote, overlaid with the last write of each field. */
module JobRecords {
  import opened Wrappers
  import Decimal
  import Json
  import opened JobStore
  import PosixPath
  import Schedule
  import Seqs
  import opened Worker
  import opened WorkerTrace
  import opened JobTrace

  /** The record after the job of `videoPaths` was submitted and the worker
      made its first `m` calls. */
  function RecordAfter(store: Store, jobId: string, videoPaths: seq<string>, outcomes: seq<FileOutcome>, m: nat): Record
    requires Valid(videoPaths, outcomes) && m <= |JobRun(videoPaths, outcomes).updates|
  {
    GetProgress(Replay(Submit(store, jobId, |videoPaths|), jobId, JobRun(videoPaths, outcomes).updates[..m]), jobId)
  }

  /** A field of the six the submission writes: the last call's write, or
      the submitted value. */
  lemma RecordField(store: Store, jobId: string, videoPaths: seq<string>, outcomes: seq<FileOutcome>, m: nat, f: string)
    requires Valid(videoPaths, outcomes) && m <= |JobRun(videoPaths, outcomes).updates|
    requires f in InitialRecord(|videoPaths|)
    ensures var us := JobRun(videoPaths, outcomes).updates[..m];
            Field(RecordAfter(store, jobId, videoPaths, outcomes, m), f)
            == (if LastWrite(us, f).Some? then LastWrite(us, f) else Some(InitialRecord(|videoPaths|)[f]))
  {
    var n := |videoPaths|;
    ReplayField(Submit(store, jobId, n), jobId, JobRun(videoPaths, outcomes).updates[..m], f);
    SubmittedRecord(store, jobId, n, f);
  }

  /** No call writes total_files. */
  lemma TotalFilesNeverWritten(us: seq<Update>)
    ensures LastWrite(us, TotalFilesField) == None
  {
    forall j | 0 <= j < |us|
      ensures Written(us[j], TotalFilesField).None?
    {
    }
    LastWriteAbsent(us, TotalFilesField);
  }

  lemma LastWriteOne(u: Update, f: string)
    ensures LastWrite([u], f) == Written(u, f)
  {
    assert [u][..0] == [];
  }

  /** After "Job started" and files 1..c: running, c files done, no result
      index written, and progress and message of file c's completion (of
      the start when c is 0). */
  lemma PrefixLastWrites(videoPaths: seq<string>, c: nat)
    requires c <= |videoPaths|
    ensures var us := [JobStarted] + FileRange(videoPaths, 0, c);
            && LastWrite(us, StatusField) == Some("running")
            && LastWrite(us, ResultIndexField) == None
            && LastWrite(us, DoneFilesField) == Some(Decimal.IntToString(c))
            && LastWrite(us, ProgressField)
               == Some(Decimal.IntToString(if c == 0 then Schedule.StartProgress else Schedule.Completion(c, |videoPaths|)))
            && LastWrite(us, MessageField)
               == Some(if c == 0 then "Job started" else "Generating DOCX for " + PosixPath.Name(videoPaths[c - 1]))
  {
    var files := FileRange(videoPaths, 0, c);
    LastWriteOne(JobStarted, StatusField);
    LastWriteOne(JobStarted, ResultIndexField);
    LastWriteOne(JobStarted, DoneFilesField);
    LastWriteOne(JobStarted, ProgressField);
    LastWriteOne(JobStarted, MessageField);
    LastWriteConcat([JobStarted], files, StatusField);
    LastWriteConcat([JobStarted], files, ResultIndexField);
    LastWriteConcat([JobStarted], files, DoneFilesField);
    LastWriteConcat([JobStarted], files, ProgressField);
    LastWriteConcat([JobStarted], files, MessageField);
    if c == 0 {
      assert files == [];
    } else {
      FileRangeLastWrites(videoPaths, 0, c);
    }
  }

  /** The job's calls: the start, every completed file, then either the
      terminal call or the calls of the file that raised. */
  lemma JobRunShape(videoPaths: seq<string>, outcomes: seq<FileOutcome>)
    requires Valid(videoPaths, outcomes)
    ensures var run := JobRun(videoPaths, outcomes);
            var c := |run.results|;
            run.updates == ([JobStarted] + FileRange(videoPaths, 0, c))
                           + (if run.completed then [JobDone(run.results)]
                              else FileUpdates(videoPaths, c + 1)[..outcomes[c].stage])
  {
    var run := JobRun(videoPaths, outcomes);
    var c := |run.results|;
    var range := FileRange(videoPaths, 0, c);
    var pending := Pending(videoPaths, outcomes, c, run.completed);
    JobRunUnfold(videoPaths, outcomes);
    RunFilesShape(videoPaths, outcomes, 0);
    if run.completed {
      Seqs.Associative([JobStarted], range, pending);
      Seqs.Associative([JobStarted] + range, pending, [JobDone(run.results)]);
      assert pending == [];
      assert pending + [JobDone(run.results)] == [JobDone(run.results)];
    } else {
      Seqs.Associative([JobStarted], range, pending);
      Seqs.Associative([JobStarted] + range, pending, []);
      assert pending + [] == pending;
    }
  }

  /** The first 1 + 5k calls are the start and files 1..k, for every file k
      that completed. */
  lemma CallsThroughFile(videoPaths: seq<string>, outcomes: seq<FileOutcome>, k: nat)
    requires Valid(videoPaths, outcomes) && k <= |JobRun(videoPaths, outcomes).results|
    ensures 1 + 5 * k <= |JobRun(videoPaths, outcomes).updates|
    ensures JobRun(videoPaths, outcomes).updates[..1 + 5 * k] == [JobStarted] + FileRange(videoPaths, 0, k)
  {
    var run := JobRun(videoPaths, outcomes);
    var c := |run.results|;
    var rest := if run.completed then [JobDone(run.results)] else FileUpdates(videoPaths, c + 1)[..outcomes[c].stage];
    JobRunShape(videoPaths, outcomes);
    FileRangeSplit(videoPaths, 0, k, c);
    SplitPrefix([JobStarted], FileRange(videoPaths, 0, k), FileRange(videoPaths, k, c), rest);
  }

  lemma SplitPrefix<T>(start: seq<T>, left: seq<T>, right: seq<T>, rest: seq<T>)
    ensures |start| + |left| <= |(start + (left + right)) + rest|
    ensures ((start + (left + right)) + rest)[..|start| + |left|] == start + left
  {
    var all := (start + (left + right)) + rest;
    assert all == (start + left) + (right + rest);
  }

  /** The record after file k's completion call (after "Job started" when
      k is 0): still running, k files done, no result index yet, and the
      progress and message of that call's moment. */
  lemma RecordAfterFile(store: Store, jobId: string, videoPaths: seq<string>, outcomes: seq<FileOutcome>, k: nat)
    requires Valid(videoPaths, outcomes) && k <= |JobRun(videoPaths, outcomes).results|
    ensures 1 + 5 * k <= |JobRun(videoPaths, outcomes).updates|
    ensures var rec := RecordAfter(store, jobId, videoPaths, outcomes, 1 + 5 * k);
            && Field(rec, StatusField) == Some("running")
            && Field(rec, DoneFilesField) == Some(Decimal.IntToString(k))
            && Field(rec, TotalFilesField) == Some(Decimal.IntToString(|videoPaths|))
            && Field(rec, ResultIndexField) == Some("[]")
            && Field(rec, ProgressField)
               == Some(Decimal.IntToString(if k == 0 then Schedule.StartProgress else Schedule.Completion(k, |videoPaths|)))
            && Field(rec, MessageField)
               == Some(if k == 0 then "Job started" else "Generating DOCX for " + PosixPath.Name(videoPaths[k - 1]))
  {
    CallsThroughFile(videoPaths, outcomes, k);
    PrefixLastWrites(videoPaths, k);
    TotalFilesNeverWritten(JobRun(videoPaths, outcomes).updates[..1 + 5 * k]);
    RecordAfterFileStatus(store, jobId, videoPaths, outcomes, k);
    RecordAfterFileProgress(store, jobId, videoPaths, outcomes, k);
  }

  lemma RecordAfterFileStatus(store: Store, jobId: string, videoPaths: seq<string>, outcomes: seq<FileOutcome>, k: nat)
    requires Valid(videoPaths, outcomes) && k <= |JobRun(videoPaths, outcomes).results|
    requires 1 + 5 * k <= |JobRun(videoPaths, outcomes).updates|
    requires var us := JobRun(videoPaths, outcomes).updates[..1 + 5 * k];
             && LastWrite(us, StatusField) == Some("running")
             && LastWrite(us, ResultIndexField) == None
             && LastWrite(us, DoneFilesField) == Some(Decimal.IntToString(k))
             && LastWrite(us, TotalFilesField) == None
    ensures var rec := RecordAfter(store, jobId, videoPaths, outcomes, 1 + 5 * k);
            && Field(rec, StatusField) == Some("running")
            && Field(rec, DoneFilesField) == Some(Decimal.IntToString(k))
            && Field(rec, TotalFilesField) == Some(Decimal.IntToString(|videoPaths|))
            && Field(rec, ResultIndexField) == Some("[]")
  {
    var m := 1 + 5 * k;
    RecordField(store, jobId, videoPaths, outcomes, m, StatusField);
    RecordField(store, jobId, videoPaths, outcomes, m, DoneFilesField);
    RecordField(store, jobId, videoPaths, outcomes, m, TotalFilesField);
    RecordField(store, jobId, videoPaths, outcomes, m, ResultIndexField);
  }

  lemma RecordAfterFileProgress(store: Store, jobId: string, videoPaths: seq<string>, outcomes: seq<FileOutcome>, k: nat)
    requires Valid(videoPaths, outcomes) && k <= |JobRun(videoPaths, outcomes).results|
    requires 1 + 5 * k <= |JobRun(videoPaths, outcomes).updates|
    requires var us := JobRun(videoPaths, outcomes).updates[..1 + 5 * k];
             && LastWrite(us, ProgressField)
                == Some(Decimal.IntToString(if k == 0 then Schedule.StartProgress else Schedule.Completion(k, |videoPaths|)))
             && LastWrite(us, MessageField)
                == Some(if k == 0 then "Job started" else "Generating DOCX for " + PosixPath.Name(videoPaths[k - 1]))
    ensures var rec := RecordAfter(store, jobId, videoPaths, outcomes, 1 + 5 * k);
            && Field(rec, ProgressField)
               == Some(Decimal.IntToString(if k == 0 then Schedule.StartProgress else Schedule.Completion(k, |videoPaths|)))
            && Field(rec, MessageField)
               == Some(if k == 0 then "Job started" else "Generating DOCX for " + PosixPath.Name(videoPaths[k - 1]))
  {
    var m := 1 + 5 * k;
    RecordField(store, jobId, videoPaths, outcomes, m, ProgressField);
    RecordField(store, jobId, videoPaths, outcomes, m, MessageField);
  }

  // ---------------------------------------------------------------------------
  // The end of the job

  /** The last writes of a completed job: the terminal call's four fields,
      and done_files from file n's completion call. */
  lemma CompletedLastWrites(videoPaths: seq<string>, outcomes: seq<FileOutcome>)
    requires Valid(videoPaths, outcomes) && JobRun(videoPaths, outcomes).completed
    ensures var run := JobRun(videoPaths, outcomes);
            var us := run.updates;
            && LastWrite(us, StatusField) == Some("done")
            && LastWrite(us, ProgressField) == Some(Decimal.IntToString(Schedule.FinalProgress))
            && LastWrite(us, MessageField) == Some("All files processed")
            && LastWrite(us, DoneFilesField) == Some(Decimal.IntToString(|videoPaths|))
            && LastWrite(us, ResultIndexField) == Some(Json.DumpEntries(run.results))
            && LastWrite(us, TotalFilesField) == None
  {
    var run := JobRun(videoPaths, outcomes);
    var n := |videoPaths|;
    var front := [JobStarted] + FileRange(videoPaths, 0, n);
    var done := JobDone(run.results);
    JobRunShape(videoPaths, outcomes);
    assert run.updates == front + [done];
    PrefixLastWrites(videoPaths, n);
    LastWriteOne(done, StatusField);
    LastWriteOne(done, ProgressField);
    LastWriteOne(done, MessageField);
    LastWriteOne(done, DoneFilesField);
    LastWriteOne(done, ResultIndexField);
    LastWriteConcat(front, [done], StatusField);
    LastWriteConcat(front, [done], ProgressField);
    LastWriteConcat(front, [done], MessageField);
    LastWriteConcat(front, [done], DoneFilesField);
    LastWriteConcat(front, [done], ResultIndexField);
    TotalFilesNeverWritten(run.updates);
  }

  lemma AllCalls(videoPaths: seq<string>, outcomes: seq<FileOutcome>)
    requires Valid(videoPaths, outcomes)
    ensures var us := JobRun(videoPaths, outcomes).updates; us[..|us|] == us
  {
  }

  /** The record a completed job leaves: done, 100, "All files processed",
      every file counted, and the JSON list of the result entries. */
  lemma FinalRecordCompleted(store: Store, jobId: string, videoPaths: seq<string>, outcomes: seq<FileOutcome>)
    requires Valid(videoPaths, outcomes) && JobRun(videoPaths, outcomes).completed
    ensures var run := JobRun(videoPaths, outcomes);
            var rec := RecordAfter(store, jobId, videoPaths, outcomes, |run.updates|);
            && Field(rec, StatusField) == Some("done")
            && Field(rec, ProgressField) == Some(Decimal.IntToString(Schedule.FinalProgress))
            && Field(rec, MessageField) == Some("All files processed")
            && Field(rec, DoneFilesField) == Some(Decimal.IntToString(|videoPaths|))
            && Field(rec, TotalFilesField) == Some(Decimal.IntToString(|videoPaths|))
            && Field(rec, ResultIndexField) == Some(Json.DumpEntries(run.results))
  {
    CompletedStatusFields(store, jobId, videoPaths, outcomes);
    CompletedCountFields(store, jobId, videoPaths, outcomes);
  }

  /** Status, progress and message of a completed job. */
  lemma CompletedStatusFields(store: Store, jobId: string, videoPaths: seq<string>, outcomes: seq<FileOutcome>)
    requires Valid(videoPaths, outcomes) && JobRun(videoPaths, outcomes).completed
    ensures var run := JobRun(videoPaths, outcomes);
            var rec := RecordAfter(store, jobId, videoPaths, outcomes, |run.updates|);
            && Field(rec, StatusField) == Some("done")
            && Field(rec, ProgressField) == Some(Decimal.IntToString(Schedule.FinalProgress))
            && Field(rec, MessageField) == Some("All files processed")
  {
    var m := |JobRun(videoPaths, outcomes).updates|;
    AllCalls(videoPaths, outcomes);
    CompletedLastWrites(videoPaths, outcomes);
    RecordField(store, jobId, videoPaths, outcomes, m, StatusField);
    RecordField(store, jobId, videoPaths, outcomes, m, ProgressField);
    RecordField(store, jobId, videoPaths, outcomes, m, MessageField);
  }

  /** Done and total files and the result index of a completed job. */
  lemma CompletedCountFields(store: Store, jobId: string, videoPaths: seq<string>, outcomes: seq<FileOutcome>)
    requires Valid(videoPaths, outcomes) && JobRun(videoPaths, outcomes).completed
    ensures var run := JobRun(videoPaths, outcomes);
            var rec := RecordAfter(store, jobId, videoPaths, outcomes, |run.updates|);
            && Field(rec, DoneFilesField) == Some(Decimal.IntToString(|videoPaths|))
            && Field(rec, TotalFilesField) == Some(Decimal.IntToString(|videoPaths|))
            && Field(rec, ResultIndexField) == Some(Json.DumpEntries(run.results))
  {
    var m := |JobRun(videoPaths, outcomes).updates|;
    AllCalls(videoPaths, outcomes);
    CompletedLastWrites(videoPaths, outcomes);
    InitialRecordValues(|videoPaths|);
    RecordField(store, jobId, videoPaths, outcomes, m, DoneFilesField);
    RecordField(store, jobId, videoPaths, outcomes, m, TotalFilesField);
    RecordField(store, jobId, videoPaths, outcomes, m, ResultIndexField);
  }


  /** The result index of a completed job reads back as one entry per
      file, in the order of the input: the file's name and the path its
      document was written to. */
  lemma ResultIndexReadsBack(store: Store, jobId: string, videoPaths: seq<string>, outcomes: seq<FileOutcome>)
    requires Valid(videoPaths, outcomes) && JobRun(videoPaths, outcomes).completed
    ensures var run := JobRun(videoPaths, outcomes);
            var rec := RecordAfter(store, jobId, videoPaths, outcomes, |run.updates|);
            && Field(rec, ResultIndexField).Some?
            && Json.ReadEntries(Field(rec, ResultIndexField).value) == Some(run.results)
            && |run.results| == |videoPaths|
            && forall j :: 0 <= j < |videoPaths| ==>
                 && outcomes[j].Produced?
                 && run.results[j] == Json.ResultEntry(PosixPath.Name(videoPaths[j]), outcomes[j].docxPath)
  {
    var run := JobRun(videoPaths, outcomes);
    var rec := RecordAfter(store, jobId, videoPaths, outcomes, |run.updates|);
    CompletedCountFields(store, jobId, videoPaths, outcomes);
    StoredListReadsBack(rec, run.results);
    CompletedResults(videoPaths, outcomes);
  }

  /** A field holding the JSON text of a list reads back as the list. */
  lemma StoredListReadsBack(rec: Record, es: seq<Json.ResultEntry>)
    requires Field(rec, ResultIndexField) == Some(Json.DumpEntries(es))
    ensures Field(rec, ResultIndexField).Some? && Json.ReadEntries(Field(rec, ResultIndexField).value) == Some(es)
  {
    Json.DumpEntriesRoundTrip(es);
  }

  /** A completed run has one result per file, in input order. */
  lemma CompletedResults(videoPaths: seq<string>, outcomes: seq<FileOutcome>)
    requires Valid(videoPaths, outcomes) && JobRun(videoPaths, outcomes).completed
    ensures var run := JobRun(videoPaths, outcomes);
            && |run.results| == |videoPaths|
            && forall j :: 0 <= j < |videoPaths| ==>
                 && outcomes[j].Produced?
                 && run.results[j] == Json.ResultEntry(PosixPath.Name(videoPaths[j]), outcomes[j].docxPath)
  {
    var run := JobRun(videoPaths, outcomes);
    forall j | 0 <= j < |videoPaths|
      ensures && outcomes[j].Produced?
              && run.results[j] == Json.ResultEntry(PosixPath.Name(videoPaths[j]), outcomes[j].docxPath)
    {
      ResultsMatchAt(videoPaths, outcomes, 0, run.results, j);
    }
  }

  /** The last writes of a job whose file c+1 raised at stage s: still
      running, no result index, c files done, and the progress and message
      announcing stage s. */
  lemma RaisedLastWrites(videoPaths: seq<string>, outcomes: seq<FileOutcome>)
    requires Valid(videoPaths, outcomes) && !JobRun(videoPaths, outcomes).completed
    ensures var run := JobRun(videoPaths, outcomes);
            var c := |run.results|;
            var us := run.updates;
            && c < |videoPaths| && outcomes[c].Raised? && 1 <= outcomes[c].stage <= 4
            && LastWrite(us, StatusField) == Some("running")
            && LastWrite(us, ResultIndexField) == None
            && LastWrite(us, DoneFilesField) == Some(Decimal.IntToString(c))
            && LastWrite(us, ProgressField) == Written(FileCall(videoPaths, c + 1, outcomes[c].stage - 1), ProgressField)
            && LastWrite(us, MessageField) == Written(FileCall(videoPaths, c + 1, outcomes[c].stage - 1), MessageField)
            && LastWrite(us, TotalFilesField) == None
  {
    var run := JobRun(videoPaths, outcomes);
    var c := |run.results|;
    JobRunUnfold(videoPaths, outcomes);
    var s := outcomes[c].stage;
    var front := [JobStarted] + FileRange(videoPaths, 0, c);
    var tail := FileUpdates(videoPaths, c + 1)[..s];
    JobRunShape(videoPaths, outcomes);
    assert run.updates == front + tail;
    PrefixLastWrites(videoPaths, c);
    PartialFileLastWrites(videoPaths, c + 1, s);
    assert FileUpdates(videoPaths, c + 1)[s - 1] == FileCall(videoPaths, c + 1, s - 1);
    LastWriteConcat(front, tail, StatusField);
    LastWriteConcat(front, tail, ResultIndexField);
    LastWriteConcat(front, tail, DoneFilesField);
    LastWriteConcat(front, tail, ProgressField);
    LastWriteConcat(front, tail, MessageField);
    TotalFilesNeverWritten(run.updates);
  }

  /** The record a job leaves when a stage raised for file c+1: status
      stays "running" and the result index "[]" for good, done_files counts
      the c files before it, and progress and message stay at the
      announcement of the stage that raised. */
  lemma FinalRecordRaised(store: Store, jobId: string, videoPaths: seq<string>, outcomes: seq<FileOutcome>)
    requires Valid(videoPaths, outcomes) && !JobRun(videoPaths, outcomes).completed
    ensures var run := JobRun(videoPaths, outcomes);
            var c := |run.results|;
            var rec := RecordAfter(store, jobId, videoPaths, outcomes, |run.updates|);
            && c < |videoPaths| && outcomes[c].Raised? && 1 <= outcomes[c].stage <= 4
            && Field(rec, StatusField) == Some("running")
            && Field(rec, ResultIndexField) == Some("[]")
            && Field(rec, DoneFilesField) == Some(Decimal.IntToString(c))
            && Field(rec, TotalFilesField) == Some(Decimal.IntToString(|videoPaths|))
            && Field(rec, ProgressField) == Written(FileCall(videoPaths, c + 1, outcomes[c].stage - 1), ProgressField)
            && Field(rec, MessageField) == Written(FileCall(videoPaths, c + 1, outcomes[c].stage - 1), MessageField)
  {
    RaisedLastWrites(videoPaths, outcomes);
    RaisedStatusFields(store, jobId, videoPaths, outcomes);
    RaisedStageFields(store, jobId, videoPaths, outcomes);
  }

  /** Status, result index, done and total files of a job that raised. */
  lemma RaisedStatusFields(store: Store, jobId: string, videoPaths: seq<string>, outcomes: seq<FileOutcome>)
    requires Valid(videoPaths, outcomes) && !JobRun(videoPaths, outcomes).completed
    ensures var run := JobRun(videoPaths, outcomes);
            var rec := RecordAfter(store, jobId, videoPaths, outcomes, |run.updates|);
            && Field(rec, StatusField) == Some("running")
            && Field(rec, ResultIndexField) == Some("[]")
            && Field(rec, DoneFilesField) == Some(Decimal.IntToString(|run.results|))
            && Field(rec, TotalFilesField) == Some(Decimal.IntToString(|videoPaths|))
  {
    var m := |JobRun(videoPaths, outcomes).updates|;
    AllCalls(videoPaths, outcomes);
    RaisedLastWrites(videoPaths, outcomes);
    InitialRecordValues(|videoPaths|);
    RecordField(store, jobId, videoPaths, outcomes, m, StatusField);
    RecordField(store, jobId, videoPaths, outcomes, m, DoneFilesField);
    RecordField(store, jobId, videoPaths, outcomes, m, TotalFilesField);
    RecordField(store, jobId, videoPaths, outcomes, m, ResultIndexField);
  }

  /** Progress and message of a job that raised: those of the last stage
      announcement before the failing stage. */
  lemma RaisedStageFields(store: Store, jobId: string, videoPaths: seq<string>, outcomes: seq<FileOutcome>)
    requires Valid(videoPaths, outcomes) && !JobRun(videoPaths, outcomes).completed
    requires var c := |JobRun(videoPaths, outcomes).results|;
             c < |videoPaths| && outcomes[c].Raised? && 1 <= outcomes[c].stage <= 4
    ensures var run := JobRun(videoPaths, outcomes);
            var c := |run.results|;
            var rec := RecordAfter(store, jobId, videoPaths, outcomes, |run.updates|);
            && Field(rec, ProgressField) == Written(FileCall(videoPaths, c + 1, outcomes[c].stage - 1), ProgressField)
            && Field(rec, MessageField) == Written(FileCall(videoPaths, c + 1, outcomes[c].stage - 1), MessageField)
  {
    var run := JobRun(videoPaths, outcomes);
    var m := |run.updates|;
    var c := |run.results|;
    AllCalls(videoPaths, outcomes);
    RaisedLastWrites(videoPaths, outcomes);
    StageCallWrites(videoPaths, c + 1, outcomes[c].stage - 1);
    RecordField(store, jobId, videoPaths, outcomes, m, ProgressField);
    RecordField(store, jobId, videoPaths, outcomes, m, MessageField);
  }

  /** A stage announcement writes both progress and message. */
  lemma StageCallWrites(videoPaths: seq<string>, k: nat, s: nat)
    requires 1 <= k <= |videoPaths| && s < 4
    ensures Written(FileCall(videoPaths, k, s), ProgressField).Some?
    ensures Written(FileCall(videoPaths, k, s), MessageField).Some?
  {
  }


  // ---------------------------------------------------------------------------
  // While the job runs

  lemma LoopCallsPrefix(us: seq<Update>, i: nat)
    requires LoopCalls(us) && i <= |us|
    ensures LoopCalls(us[..i])
  {
  }

  lemma PrefixThroughMiddle<T>(a: seq<T>, b: seq<T>, t: seq<T>, i: nat)
    requires i <= |b|
    ensures (a + b + t)[..|a| + i] == a + b[..i]
  {
    assert a + b + t == (a + b[..i]) + (b[i..] + t);
  }

  /** Before the terminal call, the last status write is "Job started"'s
      and nothing wrote the result index. */
  lemma RunningLastWrites(videoPaths: seq<string>, outcomes: seq<FileOutcome>, m: nat)
    requires Valid(videoPaths, outcomes)
    requires 1 <= m <= |JobRun(videoPaths, outcomes).updates|
    requires !(JobRun(videoPaths, outcomes).completed && m == |JobRun(videoPaths, outcomes).updates|)
    ensures var us := JobRun(videoPaths, outcomes).updates[..m];
            && LastWrite(us, StatusField) == Some("running")
            && LastWrite(us, ResultIndexField) == None
  {
    var run := JobRun(videoPaths, outcomes);
    var files := RunFiles(videoPaths, outcomes, 0);
    var terminal: seq<Update> := if files.completed then [JobDone(files.results)] else [];
    JobRunUnfold(videoPaths, outcomes);
    RunFilesLoopCalls(videoPaths, outcomes, 0);
    var loop := files.updates[..m - 1];
    LoopCallsPrefix(files.updates, m - 1);
    PrefixThroughMiddle([JobStarted], files.updates, terminal, m - 1);
    assert run.updates[..m] == [JobStarted] + loop;
    LastWriteAbsent(loop, StatusField);
    LastWriteAbsent(loop, ResultIndexField);
    LastWriteOne(JobStarted, StatusField);
    LastWriteOne(JobStarted, ResultIndexField);
    LastWriteConcat([JobStarted], loop, StatusField);
    LastWriteConcat([JobStarted], loop, ResultIndexField);
  }

  /** Until the terminal call, every record shows status "running", the
      result index "[]" and the submitted total_files. */
  lemma RunningUntilTerminal(store: Store, jobId: string, videoPaths: seq<string>, outcomes: seq<FileOutcome>, m: nat)
    requires Valid(videoPaths, outcomes)
    requires 1 <= m <= |JobRun(videoPaths, outcomes).updates|
    requires !(JobRun(videoPaths, outcomes).completed && m == |JobRun(videoPaths, outcomes).updates|)
    ensures var rec := RecordAfter(store, jobId, videoPaths, outcomes, m);
            && Field(rec, StatusField) == Some("running")
            && Field(rec, ResultIndexField) == Some("[]")
            && Field(rec, TotalFilesField) == Some(Decimal.IntToString(|videoPaths|))
  {
    RunningLastWrites(videoPaths, outcomes, m);
    TotalFilesNeverWritten(JobRun(videoPaths, outcomes).updates[..m]);
    RecordField(store, jobId, videoPaths, outcomes, m, StatusField);
    RecordField(store, jobId, videoPaths, outcomes, m, ResultIndexField);
    RecordField(store, jobId, videoPaths, outcomes, m, TotalFilesField);
  }

  /** Every call writes progress, so after m calls (m >= 1) the record holds
      the m-th call's value, between 0 and 100, as its decimal text, and
      parsing the text gives the value back. */
  lemma ObservedProgress(store: Store, jobId: string, videoPaths: seq<string>, outcomes: seq<FileOutcome>, m: nat)
    requires Valid(videoPaths, outcomes)
    requires 1 <= m <= |JobRun(videoPaths, outcomes).updates|
    ensures var p := JobRun(videoPaths, outcomes).updates[m - 1].progress;
            var rec := RecordAfter(store, jobId, videoPaths, outcomes, m);
            && p.Some? && 0 <= p.value <= Schedule.FinalProgress
            && Field(rec, ProgressField) == Some(Decimal.IntToString(p.value))
            && Decimal.ParseInt(Field(rec, ProgressField).value) == Some(p.value)
  {
    var us := JobRun(videoPaths, outcomes).updates;
    ProgressWithinBounds(videoPaths, outcomes);
    var p := us[m - 1].progress;
    LastWriteIsLatest(us[..m], m - 1, ProgressField);
    RecordField(store, jobId, videoPaths, outcomes, m, ProgressField);
    Decimal.IntToStringRoundTrip(p.value);
  }

  /** From the first stage update on, the progress a client reads never
      goes down. */
  lemma ObservedProgressNonDecreasing(store: Store, jobId: string, videoPaths: seq<string>, outcomes: seq<FileOutcome>, m1: nat, m2: nat)
    requires Valid(videoPaths, outcomes)
    requires 2 <= m1 <= m2 <= |JobRun(videoPaths, outcomes).updates|
    ensures var r1 := RecordAfter(store, jobId, videoPaths, outcomes, m1);
            var r2 := RecordAfter(store, jobId, videoPaths, outcomes, m2);
            && Field(r1, ProgressField).Some? && Field(r2, ProgressField).Some?
            && Decimal.ParseInt(Field(r1, ProgressField).value).Some?
            && Decimal.ParseInt(Field(r2, ProgressField).value).Some?
            && Decimal.ParseInt(Field(r1, ProgressField).value).value
               <= Decimal.ParseInt(Field(r2, ProgressField).value).value
  {
    var us := JobRun(videoPaths, outcomes).updates;
    ObservedProgress(store, jobId, videoPaths, outcomes, m1);
    ObservedProgress(store, jobId, videoPaths, outcomes, m2);
    ProgressNonDecreasingAfterStart(videoPaths, outcomes);
    assert us[m1 - 1] == us[1..][m1 - 2] && us[m2 - 1] == us[1..][m2 - 2];
  }

  /** The job's calls touch no other job's record. */
  lemma OtherJobsUntouched(store: Store, jobId: string, other: string, videoPaths: seq<string>, outcomes: seq<FileOutcome>)
    requires Valid(videoPaths, outcomes) && other != jobId
    ensures GetProgress(Replay(Submit(store, jobId, |videoPaths|), jobId, JobRun(videoPaths, outcomes).updates), other)
            == GetProgress(store, other)
  {
    JobKeyInjective(jobId, other);
    ReplayIsolatesJobs(Submit(store, jobId, |videoPaths|), jobId, other, JobRun(videoPaths, outcomes).updates);
  }
}

=== FILE: job_store.dfy ===
/** The job state store of `app/progress.py`: one Redis hash per job under
    the key `job:<id>`, written by merging string fields into it. The Redis
    keyspace is a map from key to hash; a missing key reads as an empty
    hash, as HGETALL does. */
module JobStore {
  import opened Wrappers
  import Decimal
  import Json
  import Seqs

  /** One Redis hash: field name to stored string. */
  type Record = map<string, string>

  /** The Redis keyspace. */
  type Store = map<string, Record>

  const StatusField: string := "status"
  const ProgressField: string := "progress"
  const MessageField: string := "message"
  const DoneFilesField: string := "done_files"
  const TotalFilesField: string := "total_files"
  const ResultIndexField: string := "result_index"

  /** The keyword arguments `update_progress` is called with; None is the
      Python `None` that the function drops. */
  datatype Update = Update(
    status: Option<string>,
    progress: Option<int>,
    message: Option<string>,
    doneFiles: Option<int>,
    resultIndex: Option<seq<Json.ResultEntry>>)

  /** A call with every argument None (or with none at all). */
  const NoFields: Update := Update(None, None, None, None, None)

  function JobKey(jobId: string): string {
    "job:" + jobId
  }

  lemma JobKeyInjective(a: string, b: string)
    ensures JobKey(a) == JobKey(b) <==> a == b
  {
    if JobKey(a) == JobKey(b) {
      assert a == JobKey(a)[4..] && b == JobKey(b)[4..];
    }
  }

  /** The stored value of one field, if present. */
  function Field(rec: Record, f: string): Option<string> {
    if f in rec then Some(rec[f]) else None
  }

  /** HGETALL: the hash under `key`, empty when the key does not exist. */
  function Hash(store: Store, key: string): Record {
    if key in store then store[key] else map[]
  }

  /** HSET with a mapping: the given fields overwrite, all others stay. */
  function HSet(store: Store, key: string, data: Record): (store': Store)
    ensures store'.Keys == store.Keys + {key}
    ensures forall k :: k in store && k != key ==> store'[k] == store[k]
    ensures forall f :: Field(Hash(store', key), f) == (if f in data then Some(data[f]) else Field(Hash(store, key), f))
  {
    store[key := Hash(store, key) + data]
  }

  function OptInt(v: Option<int>): Option<string> {
    if v.Some? then Some(Decimal.IntToString(v.value)) else None
  }

  /** The fields `update_progress` can be given. */
  const Fields: set<string> := {StatusField, ProgressField, MessageField, DoneFilesField, ResultIndexField}

  /** The text one call stores in field `f`, None when it stores nothing
      there: `result_index` as its JSON text, every other value as `str(v)`. */
  function Written(u: Update, f: string): Option<string> {
    if f == StatusField then u.status
    else if f == ProgressField then OptInt(u.progress)
    else if f == MessageField then u.message
    else if f == DoneFilesField then OptInt(u.doneFiles)
    else if f == ResultIndexField then
      (if u.resultIndex.Some? then Some(Json.DumpEntries(u.resultIndex.value)) else None)
    else None
  }

  /** The mapping one call hands to HSET: the None arguments dropped, the
      others encoded. */
  function Encode(u: Update): (data: Record)
    ensures data.Keys <= Fields
    ensures forall f :: Field(data, f) == Written(u, f)
  {
    map f | f in Fields && Written(u, f).Some? :: Written(u, f).value
  }

  /** Reads the written fields back into the call's arguments. */
  function Decode(data: Record): Update {
    Update(
      Field(data, StatusField),
      if ProgressField in data then Decimal.ParseInt(data[ProgressField]) else None,
      Field(data, MessageField),
      if DoneFilesField in data then Decimal.ParseInt(data[DoneFilesField]) else None,
      if ResultIndexField in data then Json.ReadEntries(data[ResultIndexField]) else None)
  }

  /** What `update_progress` writes determines its arguments exactly: a None
      argument leaves no field and every other one reads back unchanged. */
  lemma EncodeRoundTrip(u: Update)
    ensures Decode(Encode(u)) == u
  {
    var d := Encode(u);
    assert Field(d, StatusField) == u.status;
    assert Field(d, MessageField) == u.message;
    assert Field(d, ProgressField) == OptInt(u.progress);
    assert Field(d, DoneFilesField) == OptInt(u.doneFiles);
    if u.progress.Some? {
      Decimal.IntToStringRoundTrip(u.progress.value);
    }
    if u.doneFiles.Some? {
      Decimal.IntToStringRoundTrip(u.doneFiles.value);
    }
    if u.resultIndex.Some? {
      assert Field(d, ResultIndexField) == Some(Json.DumpEntries(u.resultIndex.value));
      Json.DumpEntriesRoundTrip(u.resultIndex.value);
    } else {
      assert Field(d, ResultIndexField) == None;
    }
  }

  /** Two records that agree on every field are the same record. */
  lemma RecordsEqual(a: Record, b: Record)
    requires forall f :: Field(a, f) == Field(b, f)
    ensures a == b
  {
    assert a.Keys == b.Keys by {
      forall f
        ensures f in a <==> f in b
      {
        assert Field(a, f).Some? <==> Field(b, f).Some?;
      }
    }
    forall f | f in a
      ensures a[f] == b[f]
    {
      assert Field(a, f) == Field(b, f);
    }
  }

  /** Nothing is written exactly when every argument is None. */
  lemma EncodeEmptyIffNoFields(u: Update)
    ensures Encode(u) == map[] <==> u == NoFields
  {
    if Encode(u) == map[] {
      EncodeRoundTrip(u);
      assert Decode(map[]) == NoFields;
    }
  }

  /** `update_progress(job_id, **kwargs)`: merges the encoded non-None fields
      into the hash `job:<id>`, and skips the write when there are none. */
  function UpdateProgress(store: Store, jobId: string, u: Update): (store': Store)
    ensures u == NoFields ==> store' == store
    ensures forall k :: k in store && k != JobKey(jobId) ==> k in store' && store'[k] == store[k]
    ensures forall k :: k in store' && k != JobKey(jobId) ==> k in store
    ensures forall f :: Field(GetProgress(store', jobId), f)
                        == (if f in Encode(u) then Some(Encode(u)[f]) else Field(GetProgress(store, jobId), f))
  {
    var data := Encode(u);
    EncodeEmptyIffNoFields(u);
    if |data| == 0 then store else HSet(store, JobKey(jobId), data)
  }

  /** `get_progress(job_id)`: the whole hash of the job, and an empty one
      for a job nothing was written for. */
  function GetProgress(store: Store, jobId: string): (r: Record)
    ensures JobKey(jobId) in store ==> r == store[JobKey(jobId)]
    ensures JobKey(jobId) !in store ==> r == map[]
  {
    Hash(store, JobKey(jobId))
  }

  /** A field whose argument is None keeps its stored value. */
  lemma NoneArgumentKeepsField(store: Store, jobId: string, u: Update)
    ensures u.status.None? ==> Field(GetProgress(UpdateProgress(store, jobId, u), jobId), StatusField)
                               == Field(GetProgress(store, jobId), StatusField)
    ensures u.progress.None? ==> Field(GetProgress(UpdateProgress(store, jobId, u), jobId), ProgressField)
                                 == Field(GetProgress(store, jobId), ProgressField)
    ensures u.message.None? ==> Field(GetProgress(UpdateProgress(store, jobId, u), jobId), MessageField)
                                == Field(GetProgress(store, jobId), MessageField)
    ensures u.doneFiles.None? ==> Field(GetProgress(UpdateProgress(store, jobId, u), jobId), DoneFilesField)
                                  == Field(GetProgress(store, jobId), DoneFilesField)
    ensures u.resultIndex.None? ==> Field(GetProgress(UpdateProgress(store, jobId, u), jobId), ResultIndexField)
                                    == Field(GetProgress(store, jobId), ResultIndexField)
    ensures Field(GetProgress(UpdateProgress(store, jobId, u), jobId), TotalFilesField)
            == Field(GetProgress(store, jobId), TotalFilesField)
  {
  }

  /** Applying the same call twice leaves the store as applying it once. */
  lemma UpdateIdempotent(store: Store, jobId: string, u: Update)
    ensures UpdateProgress(UpdateProgress(store, jobId, u), jobId, u) == UpdateProgress(store, jobId, u)
  {
    var s1 := UpdateProgress(store, jobId, u);
    var s2 := UpdateProgress(s1, jobId, u);
    if u != NoFields {
      var k := JobKey(jobId);
      EncodeEmptyIffNoFields(u);
      assert s2.Keys == s1.Keys;
      RecordsEqual(GetProgress(s2, jobId), GetProgress(s1, jobId));
      assert s2[k] == s1[k];
    }
  }

  /** An update of one job never changes what another job reads. */
  lemma UpdateIsolatesJobs(store: Store, a: string, b: string, u: Update)
    requires a != b
    ensures GetProgress(UpdateProgress(store, a, u), b) == GetProgress(store, b)
  {
    JobKeyInjective(a, b);
  }

  /** The record `app/main.py` writes when a job of `n` files is submitted. */
  function InitialRecord(n: nat): (r: Record)
    ensures r.Keys == Fields + {TotalFilesField}
  {
    map[StatusField := "queued",
        ProgressField := "0",
        DoneFilesField := "0",
        TotalFilesField := Decimal.IntToString(n),
        MessageField := "Queued",
        ResultIndexField := "[]"]
  }
  /** The submitted counters read back as the number of files and as 0,
      and the result index as the empty list. */
  lemma InitialRecordReadsBack(n: nat)
    ensures var r := InitialRecord(n);
            && Decimal.ParseInt(r[TotalFilesField]) == Some(n as int)
            && Decimal.ParseInt(r[ProgressField]) == Some(0)
            && Decimal.ParseInt(r[DoneFilesField]) == Some(0)
            && Json.ReadEntries(r[ResultIndexField]) == Some([])
  {
    Decimal.IntToStringRoundTrip(n);
    Decimal.IntToStringRoundTrip(0);
    Json.DumpEntriesRoundTrip([]);
    assert Json.DumpEntries([]) == "[]";
  }

  /** The six submitted fields and their values. */
  lemma InitialRecordValues(n: nat)
    ensures var r := InitialRecord(n);
            && StatusField in r && r[StatusField] == "queued"
            && ProgressField in r && r[ProgressField] == "0"
            && DoneFilesField in r && r[DoneFilesField] == "0"
            && TotalFilesField in r && r[TotalFilesField] == Decimal.IntToString(n)
            && MessageField in r && r[MessageField] == "Queued"
            && ResultIndexField in r && r[ResultIndexField] == "[]"
  {
  }

  /** The submission's HSET: the six initial fields overwrite the job's
      hash, any other field of it stays, and no other key changes. */
  function Submit(store: Store, jobId: string, n: nat): (store': Store)
    ensures store'.Keys == store.Keys + {JobKey(jobId)}
    ensures forall k :: k in store && k != JobKey(jobId) ==> store'[k] == store[k]
    ensures forall f :: Field(GetProgress(store', jobId), f)
                        == (if f in InitialRecord(n) then Some(InitialRecord(n)[f]) else Field(GetProgress(store, jobId), f))
  {
    HSet(store, JobKey(jobId), InitialRecord(n))
  }

  // ---------------------------------------------------------------------------
  // A sequence of calls

  /** The store after the calls `us`, in order. */
  function Replay(store: Store, jobId: string, us: seq<Update>): Store
    decreases |us|
  {
    if |us| == 0 then store
    else UpdateProgress(Replay(store, jobId, us[..|us| - 1]), jobId, us[|us| - 1])
  }

  /** The text the last call in `us` that writes field `f` stored there. */
  function LastWrite(us: seq<Update>, f: string): Option<string>
    decreases |us|
  {
    if |us| == 0 then None
    else if Written(us[|us| - 1], f).Some? then Written(us[|us| - 1], f)
    else LastWrite(us[..|us| - 1], f)
  }

  /** After a sequence of calls each field holds what the last call writing
      it stored, or its value from before if no call wrote it. */
  lemma {:induction false} ReplayField(store: Store, jobId: string, us: seq<Update>, f: string)
    ensures Field(GetProgress(Replay(store, jobId, us), jobId), f)
            == (if LastWrite(us, f).Some? then LastWrite(us, f) else Field(GetProgress(store, jobId), f))
    decreases |us|
  {
    if |us| > 0 {
      ReplayField(store, jobId, us[..|us| - 1], f);
    }
  }

  /** Calls for one job leave every other job's record as it was. */
  lemma {:induction false} ReplayIsolatesJobs(store: Store, a: string, b: string, us: seq<Update>)
    requires a != b
    ensures GetProgress(Replay(store, a, us), b) == GetProgress(store, b)
    decreases |us|
  {
    if |us| > 0 {
      ReplayIsolatesJobs(store, a, b, us[..|us| - 1]);
      UpdateIsolatesJobs(Replay(store, a, us[..|us| - 1]), a, b, us[|us| - 1]);
    }
  }

  /** A field no call in `us` writes has no last write. */
  lemma {:induction false} LastWriteAbsent(us: seq<Update>, f: string)
    requires forall j :: 0 <= j < |us| ==> Written(us[j], f).None?
    ensures LastWrite(us, f) == None
    decreases |us|
  {
    if |us| > 0 {
      LastWriteAbsent(us[..|us| - 1], f);
    }
  }

  /** The call at `j` is the last one writing `f`. */
  lemma {:induction false} LastWriteIsLatest(us: seq<Update>, j: nat, f: string)
    requires j < |us| && Written(us[j], f).Some?
    requires forall k :: j < k < |us| ==> Written(us[k], f).None?
    ensures LastWrite(us, f) == Written(us[j], f)
    decreases |us|
  {
    if j < |us| - 1 {
      LastWriteIsLatest(us[..|us| - 1], j, f);
    }
  }

  /** The last write over two runs of calls: the second run's if it wrote
      the field at all, the first run's otherwise. */
  lemma {:induction false} LastWriteConcat(a: seq<Update>, b: seq<Update>, f: string)
    ensures LastWrite(a + b, f) == (if LastWrite(b, f).Some? then LastWrite(b, f) else LastWrite(a, f))
    decreases |b|
  {
    if |b| == 0 {
      Seqs.ConcatEmpty(a);
    } else {
      Seqs.DropLastOfConcat(a, b);
      LastWriteConcat(a, b[..|b| - 1], f);
    }
  }

  /** The record a submission leaves: the six initial fields, whatever the
      job's key held before. */
  lemma SubmittedRecord(store: Store, jobId: string, n: nat, f: string)
    requires f in InitialRecord(n)
    ensures Field(GetProgress(Submit(store, jobId, n), jobId), f) == Some(InitialRecord(n)[f])
  {
  }
}

=== FILE: job_trace.dfy ===
/** The whole job as a client polling `GET /api/jobs/{job_id}` sees it: the
    record `app/main.py` writes at submission, then the record after each
    `update_progress` call of `process_job`. */
module JobTrace {
  import opened Wrappers
  import opened JobStore
  import Schedule
  import opened Worker
  import opened WorkerTrace

  predicate Valid(videoPaths: seq<string>, outcomes: seq<FileOutcome>) {
    |outcomes| == |videoPaths| && StagesInRange(outcomes)
  }

  // ---------------------------------------------------------------------------
  // The calls

  lemma JobRunUnfold(videoPaths: seq<string>, outcomes: seq<FileOutcome>)
    requires Valid(videoPaths, outcomes)
    ensures var run := JobRun(videoPaths, outcomes);
            var files := RunFiles(videoPaths, outcomes, 0);
            && run.results == files.results
            && run.completed == files.completed
            && run.updates == [JobStarted] + files.updates + (if files.completed then [JobDone(files.results)] else [])
  {
  }

  lemma BetweenConcat(a: seq<Update>, b: seq<Update>, lo: int, hi: int)
    requires ProgressBetween(a, lo, hi) && ProgressBetween(b, lo, hi)
    ensures ProgressBetween(a + b, lo, hi)
  {
    forall j | 0 <= j < |a + b|
      ensures (a + b)[j].progress.Some? && lo <= (a + b)[j].progress.value <= hi
    {
      if j < |a| { assert (a + b)[j] == a[j]; } else { assert (a + b)[j] == b[j - |a|]; }
    }
  }

  lemma LoopFloorAtMost100(n: nat, i: nat)
    ensures 0 <= LoopFloor(n, i) <= Schedule.FinalProgress
  {
    if i < n {
      Schedule.SliceOrder(i + 1, n);
    }
  }

  /** Every call writes a progress value between 0 and 100. */
  lemma ProgressWithinBounds(videoPaths: seq<string>, outcomes: seq<FileOutcome>)
    requires Valid(videoPaths, outcomes)
    ensures ProgressBetween(JobRun(videoPaths, outcomes).updates, 0, Schedule.FinalProgress)
  {
    var files := RunFiles(videoPaths, outcomes, 0);
    var terminal: seq<Update> := if files.completed then [JobDone(files.results)] else [];
    JobRunUnfold(videoPaths, outcomes);
    RunFilesProgress(videoPaths, outcomes, 0);
    LoopFloorAtMost100(|videoPaths|, 0);
    Widen(files.updates, LoopFloor(|videoPaths|, 0), Schedule.FinalProgress, 0, Schedule.FinalProgress);
    assert ProgressBetween([JobStarted], 0, Schedule.FinalProgress);
    assert ProgressBetween(terminal, 0, Schedule.FinalProgress);
    BetweenConcat([JobStarted], files.updates, 0, Schedule.FinalProgress);
    BetweenConcat([JobStarted] + files.updates, terminal, 0, Schedule.FinalProgress);
  }

  /** From the first stage update on, progress never goes down. */
  lemma ProgressNonDecreasingAfterStart(videoPaths: seq<string>, outcomes: seq<FileOutcome>)
    requires Valid(videoPaths, outcomes)
    ensures |JobRun(videoPaths, outcomes).updates| >= 1
    ensures ProgressNonDecreasing(JobRun(videoPaths, outcomes).updates[1..])
  {
    var run := JobRun(videoPaths, outcomes);
    var files := RunFiles(videoPaths, outcomes, 0);
    var terminal: seq<Update> := if files.completed then [JobDone(files.results)] else [];
    JobRunUnfold(videoPaths, outcomes);
    RunFilesProgress(videoPaths, outcomes, 0);
    LoopFloorAtMost100(|videoPaths|, 0);
    assert run.updates[1..] == files.updates + terminal;
    assert ProgressNonDecreasing(terminal) && ProgressBetween(terminal, Schedule.FinalProgress, Schedule.FinalProgress);
    ConcatNonDecreasing(files.updates, terminal, LoopFloor(|videoPaths|, 0), Schedule.FinalProgress, Schedule.FinalProgress);
  }

  /** The first call of the loop announces file 1's audio stage. */
  lemma RunFilesFirstCall(videoPaths: seq<string>, outcomes: seq<FileOutcome>)
    requires Valid(videoPaths, outcomes) && |videoPaths| >= 1
    ensures var us := RunFiles(videoPaths, outcomes, 0).updates;
            |us| >= 1 && us[0] == FileCall(videoPaths, 1, 0)
  {
    var file := FileUpdates(videoPaths, 1);
    if outcomes[0].Produced? {
      RunFilesProducedStep(videoPaths, outcomes, 0);
    }
    assert file[0] == FileCall(videoPaths, 1, 0);
  }

  lemma StartThenRest(us: seq<Update>)
    requires |us| >= 2 && us[0].progress.Some? && ProgressNonDecreasing(us[1..])
    requires us[0].progress.value <= us[1].progress.value
    ensures ProgressNonDecreasing(us)
  {
    var rest := us[1..];
    forall j | 0 <= j < |us|
      ensures us[j].progress.Some?
    {
      if j > 0 { assert us[j] == rest[j - 1]; }
    }
    forall i, j | 0 <= i <= j < |us|
      ensures us[i].progress.value <= us[j].progress.value
    {
      if i == 0 {
        if j > 0 {
          assert us[1] == rest[0] && us[j] == rest[j - 1];
        }
      } else {
        assert us[i] == rest[i - 1] && us[j] == rest[j - 1];
      }
    }
  }

  /** The second call of a job with files is file 1's audio stage
      announcement. */
  lemma SecondCall(videoPaths: seq<string>, outcomes: seq<FileOutcome>)
    requires Valid(videoPaths, outcomes) && |videoPaths| >= 1
    ensures var us := JobRun(videoPaths, outcomes).updates;
            && |us| >= 2 && us[0] == JobStarted
            && us[1].progress == Some(Schedule.StageValue(1, |videoPaths|, Schedule.AudioPercent))
  {
    var files := RunFiles(videoPaths, outcomes, 0);
    JobRunUnfold(videoPaths, outcomes);
    RunFilesFirstCall(videoPaths, outcomes);
    assert JobRun(videoPaths, outcomes).updates[1] == files.updates[0];
  }

  /** A job without files writes "Job started" at 5, then 100. */
  lemma EmptyJobNonDecreasing(videoPaths: seq<string>, outcomes: seq<FileOutcome>)
    requires Valid(videoPaths, outcomes) && |videoPaths| == 0
    ensures ProgressNonDecreasing(JobRun(videoPaths, outcomes).updates)
  {
    JobRunUnfold(videoPaths, outcomes);
    RunFilesEnd(videoPaths, outcomes, 0);
    var us := JobRun(videoPaths, outcomes).updates;
    assert us == [JobStarted, JobDone([])];
    StepwiseNonDecreasing(us);
  }

  /** With one to four files the start value 5 is at most file 1's first
      stage value, so progress never goes down. */
  lemma SmallJobNonDecreasing(videoPaths: seq<string>, outcomes: seq<FileOutcome>)
    requires Valid(videoPaths, outcomes) && 1 <= |videoPaths| <= 4
    ensures ProgressNonDecreasing(JobRun(videoPaths, outcomes).updates)
  {
    SecondCall(videoPaths, outcomes);
    ProgressNonDecreasingAfterStart(videoPaths, outcomes);
    Schedule.StartBelowFirstStageIff(|videoPaths|);
    StartThenRest(JobRun(videoPaths, outcomes).updates);
  }

  /** With five files or more, the bar goes back from 5 to file 1's first
      stage value right after "Job started". */
  lemma LargeJobDips(videoPaths: seq<string>, outcomes: seq<FileOutcome>)
    requires Valid(videoPaths, outcomes) && |videoPaths| >= 5
    ensures var us := JobRun(videoPaths, outcomes).updates;
            |us| >= 2 && us[1].progress.value < us[0].progress.value
  {
    SecondCall(videoPaths, outcomes);
    Schedule.StartBelowFirstStageIff(|videoPaths|);
  }

  /** Progress never goes down over the whole job exactly when the job has
      at most four files: from five files on, file 1's first stage value
      ⌊⌊100/n⌋·0.2⌋ is below the 5 written with "Job started". */
  lemma ProgressNonDecreasingIff(videoPaths: seq<string>, outcomes: seq<FileOutcome>)
    requires Valid(videoPaths, outcomes)
    ensures ProgressNonDecreasing(JobRun(videoPaths, outcomes).updates) <==> |videoPaths| <= 4
  {
    var n := |videoPaths|;
    if n == 0 {
      EmptyJobNonDecreasing(videoPaths, outcomes);
    } else if n <= 4 {
      SmallJobNonDecreasing(videoPaths, outcomes);
    } else {
      LargeJobDips(videoPaths, outcomes);
    }
  }
}

=== FILE: json.dfy ===
/** The JSON text of `result_index`: Python's `json.dumps` with its default
    settings (ASCII-only output, `", "` and `": "` separators) applied to a
    list of `{"video": ..., "docx_path": ...}` objects, and a reader for that
    exact layout that recovers the list. */
module Json {
  import opened Wrappers
  import Seqs

  /** One `result_index` element: the video's file name and its document path. */
  datatype ResultEntry = ResultEntry(video: string, docxPath: string)

  const HexDigits: string := "0123456789abcdef"

  /** Four lower-case hex digits, as `'\\u{0:04x}'.format(n)`. */
  function Hex4(n: nat): (s: string)
    requires n < 0x10000
    ensures |s| == 4
  {
    var q1 := n / 16;
    var q2 := q1 / 16;
    var q3 := q2 / 16;
    [HexDigits[q3 % 16], HexDigits[q2 % 16], HexDigits[q1 % 16], HexDigits[n % 16]]
  }

  function HexValue(c: char): Option<nat> {
    if '0' <= c <= '9' then Some(c as int - '0' as int)
    else if 'a' <= c <= 'f' then Some(c as int - 'a' as int + 10)
    else if 'A' <= c <= 'F' then Some(c as int - 'A' as int + 10)
    else None
  }

  function ParseHex4(s: string): (r: Option<nat>)
    requires |s| == 4
    ensures r.Some? ==> r.value < 0x10000
  {
    match (HexValue(s[0]), HexValue(s[1]), HexValue(s[2]), HexValue(s[3]))
    case (Some(a), Some(b), Some(c), Some(d)) =>
      if a < 16 && b < 16 && c < 16 && d < 16 then Some(((a * 16 + b) * 16 + c) * 16 + d) else None
    case _ => None
  }

  lemma HexDigitValue(d: nat)
    requires d < 16
    ensures HexValue(HexDigits[d]) == Some(d)
  {
  }

  lemma Hex4RoundTrip(n: nat)
    requires n < 0x10000
    ensures ParseHex4(Hex4(n)) == Some(n)
  {
    var q1 := n / 16;
    var q2 := q1 / 16;
    var q3 := q2 / 16;
    HexDigitValue(q3 % 16);
    HexDigitValue(q2 % 16);
    HexDigitValue(q1 % 16);
    HexDigitValue(n % 16);
    assert q3 < 16;
    assert q3 % 16 == q3;
    assert (q3 * 16 + q2 % 16) == q2;
    assert q2 * 16 + q1 % 16 == q1;
    assert q1 * 16 + n % 16 == n;
  }

  /** The characters `json.dumps` writes unescaped: printable ASCII other
      than the quote and the backslash. */
  predicate IsPlain(c: char) {
    ' ' <= c <= '~' && c != '"' && c != '\\'
  }

  /** The characters with a two-character escape. */
  predicate HasShortEscape(c: char) {
    c == '"' || c == '\\' || c == '\n' || c == '\r' || c == '\t' || c == '\U{8}' || c == '\U{c}'
  }

  /** The ASCII escape of one character (`py_encode_basestring_ascii`):
      short escapes for quote, backslash and five control characters, `\uXXXX`
      for the rest of the non-printable range, and a surrogate pair above
      U+FFFF. */
  function EscapeChar(c: char): (e: string)
    ensures 1 <= |e|
    ensures e[0] != '"'
  {
    if HasShortEscape(c) then
      if c == '"' then "\\\""
      else if c == '\\' then "\\\\"
      else if c == '\n' then "\\n"
      else if c == '\r' then "\\r"
      else if c == '\t' then "\\t"
      else if c == '\U{8}' then "\\b"
      else "\\f"
    else if IsPlain(c) then [c]
    else if c as int < 0x10000 then "\\u" + Hex4(c as int)
    else
      var m := c as int - 0x10000;
      "\\u" + Hex4(0xD800 + m / 0x400) + "\\u" + Hex4(0xDC00 + m % 0x400)
  }

  function EscapeBody(s: string): string {
    if |s| == 0 then "" else EscapeChar(s[0]) + EscapeBody(s[1..])
  }

  /** `json.dumps` of a string. */
  function DumpString(s: string): string {
    "\"" + EscapeBody(s) + "\""
  }

  function DumpEntry(e: ResultEntry): string {
    "{\"video\": " + DumpString(e.video) + ", \"docx_path\": " + DumpString(e.docxPath) + "}"
  }

  function DumpItems(es: seq<ResultEntry>): string {
    if |es| == 0 then ""
    else if |es| == 1 then DumpEntry(es[0])
    else DumpEntry(es[0]) + ", " + DumpItems(es[1..])
  }

  /** `json.dumps(results)` for the worker's list of result dictionaries. */
  function DumpEntries(es: seq<ResultEntry>): (r: string)
    ensures 2 <= |r| && r[0] == '[' && r[|r| - 1] == ']'
    ensures r == "[]" <==> |es| == 0
  {
    assert |es| > 0 ==> DumpItems(es)[0] == '{';
    "[" + DumpItems(es) + "]"
  }

  // ---------------------------------------------------------------------------
  // Reading the text back

  /** The character a two-character escape `\x` stands for. */
  function ShortUnescape(x: char): Option<char> {
    if x == '"' then Some('"')
    else if x == '\\' then Some('\\')
    else if x == '/' then Some('/')
    else if x == 'n' then Some('\n')
    else if x == 'r' then Some('\r')
    else if x == 't' then Some('\t')
    else if x == 'b' then Some('\U{8}')
    else if x == 'f' then Some('\U{c}')
    else None
  }

  /** Decodes a `\uXXXX` escape at the head of `s`, joining a high and a
      low surrogate escape into one character; a lone surrogate is refused. */
  function DecodeUnicode(s: string): (r: Option<(char, nat)>)
    requires 2 <= |s|
    ensures r.Some? ==> 1 <= r.value.1 <= |s|
  {
    if |s| < 6 then None
    else match ParseHex4(s[2..6])
      case None => None
      case Some(v) =>
        if 0xD800 <= v < 0xDC00 then
          if |s| < 12 || s[6] != '\\' || s[7] != 'u' then None
          else match ParseHex4(s[8..12])
            case None => None
            case Some(w) =>
              if 0xDC00 <= w < 0xE000 then Some(((0x10000 + (v - 0xD800) * 0x400 + (w - 0xDC00)) as char, 12))
              else None
        else if 0xDC00 <= v < 0xE000 then None
        else Some((v as char, 6))
  }

  /** Decodes one (possibly escaped) character at the head of `s`, which
      must not be the closing quote; returns it and how many characters it
      took. */
  function DecodeChar(s: string): (r: Option<(char, nat)>)
    ensures r.Some? ==> 1 <= r.value.1 <= |s|
  {
    if |s| == 0 || s[0] == '"' then None
    else if s[0] != '\\' then (if s[0] as int < 0x20 then None else Some((s[0], 1)))
    else if |s| < 2 then None
    else if s[1] == 'u' then DecodeUnicode(s)
    else match ShortUnescape(s[1])
      case None => None
      case Some(c) => Some((c, 2))
  }

  /** Reads string content up to the closing quote; returns the decoded text
      and what follows the quote. */
  function ReadString(s: string): (r: Option<(string, string)>)
    ensures r.Some? ==> |r.value.1| < |s|
    decreases |s|
  {
    if |s| == 0 then None
    else if s[0] == '"' then Some(("", s[1..]))
    else match DecodeChar(s)
      case None => None
      case Some((c, n)) =>
        match ReadString(s[n..])
        case None => None
        case Some((body, rest)) => Some(([c] + body, rest))
  }

  /** What follows `prefix` at the head of `s`, if `s` starts with it. */
  function After(prefix: string, s: string): (r: Option<string>)
    ensures r.Some? ==> |r.value| == |s| - |prefix|
  {
    if |prefix| <= |s| && s[..|prefix|] == prefix then Some(s[|prefix|..]) else None
  }

  lemma AfterConcat(prefix: string, t: string)
    ensures After(prefix, prefix + t) == Some(t)
  {
    assert (prefix + t)[..|prefix|] == prefix;
    assert (prefix + t)[|prefix|..] == t;
  }

  /** A JSON string literal at the head of `s`. */
  function ReadQuoted(s: string): (r: Option<(string, string)>)
    ensures r.Some? ==> |r.value.1| < |s|
  {
    match After("\"", s)
    case None => None
    case Some(t) => ReadString(t)
  }

  function ReadEntry(s: string): (r: Option<(ResultEntry, string)>)
    ensures r.Some? ==> |r.value.1| < |s|
  {
    match After("{\"video\": ", s)
    case None => None
    case Some(s1) =>
      match ReadQuoted(s1)
      case None => None
      case Some((video, s2)) =>
        match After(", \"docx_path\": ", s2)
        case None => None
        case Some(s3) =>
          match ReadQuoted(s3)
          case None => None
          case Some((path, s4)) =>
            match After("}", s4)
            case None => None
            case Some(s5) => Some((ResultEntry(video, path), s5))
  }

  /** The items of a non-empty list and its closing bracket. */
  function ReadItems(s: string): Option<seq<ResultEntry>>
    decreases |s|
  {
    match ReadEntry(s)
    case None => None
    case Some((e, rest)) =>
      if rest == "]" then Some([e])
      else match After(", ", rest)
        case None => None
        case Some(more) =>
          match ReadItems(more)
          case None => None
          case Some(es) => Some([e] + es)
  }

  /** Reads a stored `result_index` value back into the list of entries. */
  function ReadEntries(s: string): Option<seq<ResultEntry>> {
    if s == "[]" then Some([])
    else match After("[", s)
      case None => None
      case Some(t) => ReadItems(t)
  }

  // ---------------------------------------------------------------------------
  // Round trip

  lemma DecodeShortEscape(c: char, t: string)
    requires HasShortEscape(c)
    ensures DecodeChar(EscapeChar(c) + t) == Some((c, 2))
  {
    var s := EscapeChar(c) + t;
    assert s[0] == '\\' && s[1] == EscapeChar(c)[1];
  }

  lemma DecodePlain(c: char, t: string)
    requires IsPlain(c)
    ensures DecodeChar(EscapeChar(c) + t) == Some((c, 1))
  {
    var s := EscapeChar(c) + t;
    assert !HasShortEscape(c);
    assert s[0] == c;
  }

  lemma DecodeBmp(c: char, t: string)
    requires !HasShortEscape(c) && !IsPlain(c) && c as int < 0x10000
    ensures DecodeChar(EscapeChar(c) + t) == Some((c, 6))
  {
    var s := EscapeChar(c) + t;
    assert EscapeChar(c) == "\\u" + Hex4(c as int);
    assert s[0] == '\\' && s[1] == 'u';
    assert s[2..6] == Hex4(c as int);
    Hex4RoundTrip(c as int);
    assert DecodeUnicode(s) == Some((c, 6));
  }

  lemma DecodeSurrogatePair(hi: nat, lo: nat, t: string)
    requires 0xD800 <= hi < 0xDC00 && 0xDC00 <= lo < 0xE000
    ensures DecodeUnicode("\\u" + Hex4(hi) + "\\u" + Hex4(lo) + t)
         == Some(((0x10000 + (hi - 0xD800) * 0x400 + (lo - 0xDC00)) as char, 12))
  {
    var e := "\\u" + Hex4(hi) + "\\u" + Hex4(lo);
    var s := e + t;
    assert s[2..6] == Hex4(hi) by { assert s[2..6] == e[2..6]; }
    assert s[6] == '\\' && s[7] == 'u';
    assert s[8..12] == Hex4(lo) by { assert s[8..12] == e[8..12]; }
    Hex4RoundTrip(hi);
    Hex4RoundTrip(lo);
    DecodeUnicodePair(s, hi, lo);
  }

  /** A high and a low surrogate escape in a row decode to one character. */
  lemma DecodeUnicodePair(s: string, hi: nat, lo: nat)
    requires 0xD800 <= hi < 0xDC00 && 0xDC00 <= lo < 0xE000
    requires 12 <= |s| && s[6] == '\\' && s[7] == 'u'
    requires ParseHex4(s[2..6]) == Some(hi) && ParseHex4(s[8..12]) == Some(lo)
    ensures DecodeUnicode(s) == Some(((0x10000 + (hi - 0xD800) * 0x400 + (lo - 0xDC00)) as char, 12))
  {
  }

  lemma EscapeAstral(c: char)
    requires c as int >= 0x10000
    ensures var m := c as int - 0x10000;
            EscapeChar(c) == "\\u" + Hex4(0xD800 + m / 0x400) + "\\u" + Hex4(0xDC00 + m % 0x400)
  {
  }

  lemma DecodeAstral(c: char, t: string)
    requires c as int >= 0x10000
    ensures DecodeChar(EscapeChar(c) + t) == Some((c, 12))
  {
    var m := c as int - 0x10000;
    var hi := 0xD800 + m / 0x400;
    var lo := 0xDC00 + m % 0x400;
    EscapeAstral(c);
    var s := EscapeChar(c) + t;
    assert s == "\\u" + Hex4(hi) + "\\u" + Hex4(lo) + t;
    assert s[0] == '\\' && s[1] == 'u';
    DecodeSurrogatePair(hi, lo, t);
    assert 0x10000 + (hi - 0xD800) * 0x400 + (lo - 0xDC00) == c as int;
  }

  lemma DecodeEscapedChar(c: char, t: string)
    ensures DecodeChar(EscapeChar(c) + t) == Some((c, |EscapeChar(c)|))
  {
    if HasShortEscape(c) {
      DecodeShortEscape(c, t);
    } else if IsPlain(c) {
      DecodePlain(c, t);
    } else if c as int < 0x10000 {
      DecodeBmp(c, t);
    } else {
      DecodeAstral(c, t);
    }
  }

  lemma {:induction false} ReadEscapedString(x: string, rest: string)
    ensures ReadString(EscapeBody(x) + "\"" + rest) == Some((x, rest))
    decreases |x|
  {
    var s := EscapeBody(x) + "\"" + rest;
    if |x| == 0 {
      assert s == "\"" + rest;
    } else {
      var e := EscapeChar(x[0]);
      var tail := EscapeBody(x[1..]) + "\"" + rest;
      assert s == e + tail;
      DecodeEscapedChar(x[0], tail);
      assert s[|e|..] == tail;
      ReadEscapedString(x[1..], rest);
      assert [x[0]] + x[1..] == x;
    }
  }

  lemma ReadDumpedString(x: string, rest: string)
    ensures ReadQuoted(DumpString(x) + rest) == Some((x, rest))
  {
    var t := EscapeBody(x) + "\"" + rest;
    assert DumpString(x) + rest == "\"" + t;
    AfterConcat("\"", t);
    ReadEscapedString(x, rest);
  }

  lemma ReadDumpedEntry(e: ResultEntry, rest: string)
    ensures ReadEntry(DumpEntry(e) + rest) == Some((e, rest))
  {
    var p1 := "{\"video\": ";
    var p2 := ", \"docx_path\": ";
    var s4 := "}" + rest;
    var s3 := DumpString(e.docxPath) + s4;
    var s2 := p2 + s3;
    var s1 := DumpString(e.video) + s2;
    assert DumpEntry(e) + rest == p1 + s1;
    AfterConcat(p1, s1);
    ReadDumpedString(e.video, s2);
    AfterConcat(p2, s3);
    ReadDumpedString(e.docxPath, s4);
    AfterConcat("}", rest);
  }

  /** One more entry in front of a list that reads back. */
  lemma ReadItemsCons(e: ResultEntry, more: string, es: seq<ResultEntry>)
    requires ReadItems(more) == Some(es)
    ensures ReadItems(DumpEntry(e) + (", " + more)) == Some([e] + es)
  {
    var rest := ", " + more;
    ReadDumpedEntry(e, rest);
    AfterConcat(", ", more);
    assert rest != "]" by { assert rest[0] == ','; }
  }

  lemma ReadItemsLast(e: ResultEntry)
    ensures ReadItems(DumpEntry(e) + "]") == Some([e])
  {
    ReadDumpedEntry(e, "]");
  }

  lemma {:induction false} ReadDumpedItems(es: seq<ResultEntry>)
    requires |es| >= 1
    ensures ReadItems(DumpItems(es) + "]") == Some(es)
    decreases |es|
  {
    if |es| == 1 {
      ReadItemsLast(es[0]);
      assert es == [es[0]];
    } else {
      ReadDumpedItems(es[1..]);
      ReadDumpedItemsStep(es);
    }
  }

  lemma DumpItemsUnfold(es: seq<ResultEntry>)
    requires |es| >= 2
    ensures DumpItems(es) + "]" == DumpEntry(es[0]) + (", " + (DumpItems(es[1..]) + "]"))
  {
    var a, b, c, d := DumpEntry(es[0]), ", ", DumpItems(es[1..]), "]";
    Seqs.Associative(a + b, c, d);
    Seqs.Associative(a, b, c + d);
  }

  lemma ReadDumpedItemsStep(es: seq<ResultEntry>)
    requires |es| >= 2
    requires ReadItems(DumpItems(es[1..]) + "]") == Some(es[1..])
    ensures ReadItems(DumpItems(es) + "]") == Some(es)
  {
    DumpItemsUnfold(es);
    ReadItemsCons(es[0], DumpItems(es[1..]) + "]", es[1..]);
    Seqs.HeadTail(es);
  }

  /** The stored text of `result_index` determines the list it encodes. */
  lemma DumpEntriesRoundTrip(es: seq<ResultEntry>)
    ensures ReadEntries(DumpEntries(es)) == Some(es)
  {
    if |es| == 0 {
      assert DumpEntries(es) == "[]";
    } else {
      var t := DumpItems(es) + "]";
      assert DumpEntries(es) == "[" + t;
      ReadDumpedEntry(es[0], if |es| == 1 then "]" else ", " + DumpItems(es[1..]) + "]");
      assert DumpEntries(es) != "[]";
      AfterConcat("[", t);
      ReadDumpedItems(es);
    }
  }

  lemma DumpEntriesInjective(es: seq<ResultEntry>, fs: seq<ResultEntry>)
    ensures DumpEntries(es) == DumpEntries(fs) <==> es == fs
  {
    if DumpEntries(es) == DumpEntries(fs) {
      DumpEntriesRoundTrip(es);
      DumpEntriesRoundTrip(fs);
    }
  }
}

=== FILE: posix_path.dfy ===
/** `Path(p).name` for POSIX paths: the last component once empty and `.`
    components are dropped, or "" when there is none (for "", ".", "/"). */
module PosixPath {

  /** The characters after the last '/' of `p`. */
  function TailSegment(p: string): (t: string)
    ensures |t| <= |p|
    decreases |p|
  {
    if |p| == 0 || p[|p| - 1] == '/' then ""
    else TailSegment(p[..|p| - 1]) + [p[|p| - 1]]
  }

  /** The tail segment is the suffix after the last separator. */
  lemma {:induction false} TailSegmentIsSuffix(p: string)
    ensures var t := TailSegment(p);
            && t == p[|p| - |t|..]
            && '/' !in t
            && (|t| < |p| ==> p[|p| - |t| - 1] == '/')
    decreases |p|
  {
    if |p| > 0 && p[|p| - 1] != '/' {
      var q := p[..|p| - 1];
      TailSegmentIsSuffix(q);
      var t := TailSegment(q);
      assert q[|q| - |t|..] + [p[|p| - 1]] == p[|p| - |t| - 1..];
      if |t| + 1 < |p| {
        assert q[|q| - |t| - 1] == p[|p| - |t| - 2];
      }
    }
  }

  /** `Path(p).name`: no longer than the path itself. */
  function Name(p: string): (n: string)
    ensures |n| <= |p|
    decreases |p|
  {
    var t := TailSegment(p);
    if t != "" && t != "." then t
    else if |t| == |p| then ""
    else Name(p[..|p| - |t| - 1])
  }

  /** A name holds no separator and is never `.`. */
  lemma {:induction false} NameIsComponent(p: string)
    ensures '/' !in Name(p)
    ensures Name(p) != "."
    decreases |p|
  {
    var t := TailSegment(p);
    TailSegmentIsSuffix(p);
    if !(t != "" && t != ".") && |t| != |p| {
      NameIsComponent(p[..|p| - |t| - 1]);
    }
  }

  lemma {:induction false} TailSegmentOfJoin(dir: string, n: string)
    requires '/' !in n
    ensures TailSegment(dir + "/" + n) == n
    decreases |n|
  {
    var p := dir + "/" + n;
    if |n| == 0 {
      assert p[|p| - 1] == '/';
    } else {
      assert p[..|p| - 1] == dir + "/" + n[..|n| - 1];
      TailSegmentOfJoin(dir, n[..|n| - 1]);
      assert n[..|n| - 1] + [n[|n| - 1]] == n;
    }
  }

  /** The file name of `dir/n` is `n` for a proper name: the upload path
      `upload_dir / filename` names its file. */
  lemma NameOfJoin(dir: string, n: string)
    requires '/' !in n && n != "" && n != "."
    ensures Name(dir + "/" + n) == n
  {
    TailSegmentOfJoin(dir, n);
  }

  /** Trailing separators and `.` components do not change the name. */
  lemma NameIgnoresTrailingSlash(p: string)
    ensures Name(p + "/") == Name(p)
  {
    var q := p + "/";
    assert TailSegment(q) == "";
    assert q[..|q| - 1] == p;
  }
}

=== FILE: processing.dfy ===
/** Row assembly of `app/processing.py`: the `MMSS` timestamp, the second
    each extracted frame stands for, and the table rows
    `process_video_to_rows` builds from transcript segments and frame
    captions. Segment times are the whole seconds `int(start)` and
    `int(end)`; captions are given, not computed. */
module Processing {
  import opened Wrappers
  import opened Decimal
  import Arith
  import Seqs

  // ---------------------------------------------------------------------------
  // format_mmss

  /** `format_mmss(t)` for a time of `t` whole seconds: the minutes, then
      the seconds within the minute, each zero-padded to two digits, with
      no separator. */
  function FormatMmss(t: nat): (r: string)
    ensures 4 <= |r| && AllDigits(r)
    ensures |r| == 4 <==> t < 6000
    ensures |r| > 4 ==> r[0] != '0'
    ensures DigitsValue(r[..|r| - 2]) == t / 60 && DigitsValue(r[|r| - 2..]) == t % 60
  {
    var minutes, seconds := ZeroPad2(t / 60), ZeroPad2(t % 60);
    assert (minutes + seconds)[..|minutes|] == minutes && (minutes + seconds)[|minutes|..] == seconds;
    minutes + seconds
  }

  /** Reads an `MMSS` text back: the last two digits are the seconds,
      below 60, and the digits before them the minutes, with no leading
      zero beyond the two-digit padding. Anything else is None. */
  function ParseMmss(s: string): Option<nat> {
    if |s| < 4 || !AllDigits(s) || (|s| > 4 && s[0] == '0') then None
    else
      var seconds := DigitsValue(s[|s| - 2..]);
      if seconds >= 60 then None else Some(DigitsValue(s[..|s| - 2]) * 60 + seconds)
  }

  /** The reader accepts exactly the timestamps `format_mmss` writes, and
      gives back their time. */
  lemma MmssReadsExactlyFormat(s: string, t: nat)
    ensures ParseMmss(s) == Some(t) <==> s == FormatMmss(t)
  {
    if s == FormatMmss(t) {
      FormatMmssRoundTrip(t);
    }
    if ParseMmss(s) == Some(t) {
      ParsedIsFormatted(s, t);
    }
  }

  /** Reading the timestamp gives back the whole seconds. */
  lemma FormatMmssRoundTrip(t: nat)
    ensures ParseMmss(FormatMmss(t)) == Some(t)
  {
    var r := FormatMmss(t);
    assert DigitsValue(r[..|r| - 2]) * 60 + DigitsValue(r[|r| - 2..]) == t;
  }

  /** A text the reader accepts is the one `format_mmss` writes for its
      time. */
  lemma ParsedIsFormatted(s: string, t: nat)
    requires ParseMmss(s) == Some(t)
    ensures s == FormatMmss(t)
  {
    var r := FormatMmss(t);
    MinutesFieldFormatted(s, t);
    SecondsFieldFormatted(s, t);
    assert s == s[..|s| - 2] + s[|s| - 2..];
    assert r == r[..|r| - 2] + r[|r| - 2..];
  }

  /** The seconds field of an accepted text is the one `format_mmss`
      writes. */
  lemma SecondsFieldFormatted(s: string, t: nat)
    requires ParseMmss(s) == Some(t)
    ensures s[|s| - 2..] == FormatMmss(t)[|FormatMmss(t)| - 2..]
  {
    var r := FormatMmss(t);
    var seconds := s[|s| - 2..];
    Arith.DivOfDecomposition(t, 60, DigitsValue(s[..|s| - 2]), DigitsValue(seconds));
    DigitsValueInjective(seconds, r[|r| - 2..]);
  }

  /** The minutes field of an accepted text is the one `format_mmss`
      writes. */
  lemma MinutesFieldFormatted(s: string, t: nat)
    requires ParseMmss(s) == Some(t)
    ensures |s| == |FormatMmss(t)| && s[..|s| - 2] == FormatMmss(t)[..|s| - 2]
  {
    var r := FormatMmss(t);
    var minutes := s[..|s| - 2];
    Arith.DivOfDecomposition(t, 60, DigitsValue(minutes), DigitsValue(s[|s| - 2..]));
    if |s| == 4 {
      TwoDigitsBelow100(minutes);
      DigitsValueInjective(minutes, r[..2]);
    } else {
      assert minutes[0] == s[0];
      DigitsCanonical(minutes);
      assert r[..|r| - 2][0] == r[0];
      DigitsCanonical(r[..|r| - 2]);
    }
  }

  /** Two timestamps as `format_mmss` writes them: 65 s is "0105", and
      100 minutes is "10000", with no padding beyond two digits. */
  lemma FormatMmssExamples()
    ensures FormatMmss(65) == "0105"
    ensures FormatMmss(6000) == "10000"
  {
    FormatMmss65();
    FormatMmss6000();
  }

  lemma FormatMmss65()
    ensures FormatMmss(65) == "0105"
  {
    assert "01"[..1] == "0" && "0"[..0] == [] && "05"[..1] == "0";
    assert DigitsValue("01") == 1 && DigitsValue("05") == 5;
    ReadsAs("01", "05", 1, 5);
    assert "01" + "05" == "0105";
    MmssReadsExactlyFormat("0105", 65);
  }

  lemma FormatMmss6000()
    ensures FormatMmss(6000) == "10000"
  {
    assert NatToString(1) == "1";
    assert NatToString(10) == "10";
    assert NatToString(100) == "100";
    assert ZeroPad2(100) == "100" && ZeroPad2(0) == "00";
    assert FormatMmss(6000) == ZeroPad2(100) + ZeroPad2(0);
  }

  /** A minutes field and a valid seconds field, joined, read as their
      time. */
  lemma ReadsAs(minutes: string, seconds: string, m: nat, sec: nat)
    requires AllDigits(minutes) && AllDigits(seconds) && |seconds| == 2 && |minutes| >= 2
    requires |minutes| > 2 ==> minutes[0] != '0'
    requires DigitsValue(minutes) == m && DigitsValue(seconds) == sec && sec < 60
    ensures ParseMmss(minutes + seconds) == Some(m * 60 + sec)
  {
    var s := minutes + seconds;
    assert s[..|s| - 2] == minutes && s[|s| - 2..] == seconds;
  }

  /** Distinct times give distinct timestamps. */
  lemma FormatMmssInjective(t: nat, u: nat)
    requires FormatMmss(t) == FormatMmss(u)
    ensures t == u
  {
    FormatMmssRoundTrip(t);
    FormatMmssRoundTrip(u);
  }

  // ---------------------------------------------------------------------------
  // The second of each frame

  /** A frame `extract_frames` returns: the second it stands for and the
      image file. */
  datatype Frame = Frame(second: int, path: string)

  /** The tail of `extract_frames(video_path, frames_dir, every_n_seconds)`:
      the i-th image of the sorted listing stands for second
      i·every_n_seconds. An interval of 0 raises ZeroDivisionError when the
      frame rate 1/every_n_seconds is computed, before ffmpeg runs. */
  function FrameSeconds(framePaths: seq<string>, every: int): (r: Result<seq<Frame>, string>)
    ensures r.Failure? <==> every == 0
    ensures r.Success? ==> |r.value| == |framePaths|
    ensures r.Success? ==> forall i :: 0 <= i < |framePaths| ==> r.value[i].path == framePaths[i]
  {
    if every == 0 then Failure("float division by zero")
    else Success(seq(|framePaths|, i requires 0 <= i < |framePaths| => Frame(i * every, framePaths[i])))
  }

  /** For a positive interval the seconds start at 0 and strictly
      increase, and each second divided by the interval gives the frame's
      position back. */
  lemma FrameSecondsIncreasing(framePaths: seq<string>, every: int)
    requires every > 0
    ensures var frames := FrameSeconds(framePaths, every).value;
            && (|frames| > 0 ==> frames[0].second == 0)
            && (forall i :: 0 <= i < |frames| ==> frames[i].second / every == i && frames[i].second % every == 0)
            && (forall i, j :: 0 <= i < j < |frames| ==> frames[i].second < frames[j].second)
  {
    var frames := FrameSeconds(framePaths, every).value;
    forall i | 0 <= i < |frames|
      ensures frames[i].second / every == i && frames[i].second % every == 0
    {
      assert frames[i].second == i * every;
      Arith.MulDivCancel(i, every);
    }
    forall i, j | 0 <= i < j < |frames|
      ensures frames[i].second < frames[j].second
    {
      assert frames[j].second - frames[i].second == (j - i) * every;
      Arith.PositiveProduct(j - i, every);
    }
  }

  // ---------------------------------------------------------------------------
  // Rows

  /** A transcript segment: its start and end in whole seconds
      (`int(seg["start"])`, `int(seg["end"])`) and its text. */
  datatype Segment = Segment(start: nat, end: nat, text: string)

  /** A frame's caption and the second it stands for. */
  datatype Caption = Caption(second: int, text: string)

  /** A row of the transcript table. */
  datatype Row = Row(time: string, sound: string, vision: string, compliance: string)

  /** The Vision text when no caption applies. */
  const NoVisualChange: string := "No major visual change."

  /** A caption belongs to a segment when its second lies between the
      segment's start and end, both ends included. */
  predicate InRange(seg: Segment, second: int) {
    seg.start <= second <= seg.end
  }

  /** The texts of the captions that belong to the segment, in caption
      order. */
  function Visible(seg: Segment, caps: seq<Caption>): (r: seq<string>)
    ensures |r| <= |caps|
    ensures (forall j :: 0 <= j < |caps| ==> !InRange(seg, caps[j].second)) ==> r == []
    ensures (forall j :: 0 <= j < |caps| ==> InRange(seg, caps[j].second))
            ==> |r| == |caps| && forall j :: 0 <= j < |caps| ==> r[j] == caps[j].text
  {
    if |caps| == 0 then []
    else
      assert forall j :: 0 <= j < |caps| - 1 ==> caps[1..][j] == caps[j + 1];
      (if InRange(seg, caps[0].second) then [caps[0].text] else []) + Visible(seg, caps[1..])
  }

  /** A text is visible in the segment exactly when some caption in range
      carries it. */
  lemma {:induction false} VisibleMembers(seg: Segment, caps: seq<Caption>)
    ensures forall t :: t in Visible(seg, caps) <==> exists j :: 0 <= j < |caps| && InRange(seg, caps[j].second) && caps[j].text == t
    decreases |caps|
  {
    if |caps| > 0 {
      var rest := Visible(seg, caps[1..]);
      VisibleMembers(seg, caps[1..]);
      forall t | t in rest
        ensures exists j :: 1 <= j < |caps| && InRange(seg, caps[j].second) && caps[j].text == t
      {
        var k :| 0 <= k < |caps[1..]| && InRange(seg, caps[1..][k].second) && caps[1..][k].text == t;
        assert caps[k + 1] == caps[1..][k];
      }
      forall t, j | 1 <= j < |caps| && InRange(seg, caps[j].second) && caps[j].text == t
        ensures t in rest
      {
        assert caps[1..][j - 1] == caps[j];
      }
    }
  }

  /** Filtering distributes over concatenation: the captions' order is
      kept. */
  lemma {:induction false} VisibleConcat(seg: Segment, a: seq<Caption>, b: seq<Caption>)
    ensures Visible(seg, a + b) == Visible(seg, a) + Visible(seg, b)
    decreases |a|
  {
    if |a| > 0 {
      var head := if InRange(seg, a[0].second) then [a[0].text] else [];
      assert (a + b)[1..] == a[1..] + b;
      assert (a + b)[0] == a[0];
      assert Visible(seg, a + b) == head + Visible(seg, a[1..] + b);
      VisibleConcat(seg, a[1..], b);
      Seqs.Associative(head, Visible(seg, a[1..]), Visible(seg, b));
    } else {
      assert a + b == b;
    }
  }

  /** The position of the first occurrence of `x` in `vs`. */
  function FirstIndex(vs: seq<string>, x: string): (i: nat)
    requires x in vs
    ensures i < |vs| && vs[i] == x
    ensures forall j :: 0 <= j < i ==> vs[j] != x
  {
    if vs[0] == x then 0 else 1 + FirstIndex(vs[1..], x)
  }

  /** The distinct non-empty texts of `vs`, each where it first occurs:
      the loop that appends a text unless it is empty or already kept. */
  function Dedup(vs: seq<string>): (r: seq<string>)
    ensures |r| <= |vs|
    ensures "" !in r
    ensures forall x :: x in r <==> x in vs && x != ""
    ensures forall i, j :: 0 <= i < j < |r| ==> r[i] != r[j]
  {
    if |vs| == 0 then []
    else
      var u := Dedup(vs[..|vs| - 1]);
      var v := vs[|vs| - 1];
      assert vs == vs[..|vs| - 1] + [v];
      if v != "" && v !in u then u + [v] else u
  }

  /** The deduplication loop of `process_video_to_rows`, as written. */
  method DedupLoop(vis: seq<string>) returns (uniq: seq<string>)
    ensures uniq == Dedup(vis)
    ensures "" !in uniq
    ensures forall x :: x in uniq <==> x in vis && x != ""
  {
    uniq := [];
    var i := 0;
    while i < |vis|
      invariant 0 <= i <= |vis|
      invariant uniq == Dedup(vis[..i])
    {
      var v := vis[i];
      assert vis[..i + 1][..i] == vis[..i];
      if v != "" && v !in uniq {
        uniq := uniq + [v];
      }
      i := i + 1;
    }
    assert vis[..|vis|] == vis;
  }

  /** Extending a sequence at the end leaves first occurrences where they
      were. */
  lemma FirstIndexOfPrefix(vs: seq<string>, k: nat, x: string)
    requires k <= |vs| && x in vs[..k]
    ensures x in vs && FirstIndex(vs, x) == FirstIndex(vs[..k], x)
  {
    var i := FirstIndex(vs[..k], x);
    assert vs[i] == vs[..k][i];
    forall j | 0 <= j < i
      ensures vs[j] != x
    {
      assert vs[j] == vs[..k][j];
    }
  }

  /** Every element of `r` occurs in `vs`, and `r` lists them in the
      order of their first occurrences in `vs`. */
  predicate FirstOccurrenceOrder(vs: seq<string>, r: seq<string>) {
    && (forall i :: 0 <= i < |r| ==> r[i] in vs)
    && (forall i, j :: 0 <= i < j < |r| ==> FirstIndex(vs, r[i]) < FirstIndex(vs, r[j]))
  }

  /** An order by first occurrence within all but the last element of
      `vs` is the same order within `vs`. */
  lemma OrderCarriesOver(vs: seq<string>, u: seq<string>)
    requires |vs| > 0
    requires FirstOccurrenceOrder(vs[..|vs| - 1], u)
    ensures FirstOccurrenceOrder(vs, u)
  {
    var front := vs[..|vs| - 1];
    forall i, j | 0 <= i < j < |u|
      ensures u[i] in vs && u[j] in vs && FirstIndex(vs, u[i]) < FirstIndex(vs, u[j])
    {
      FirstIndexOfPrefix(vs, |vs| - 1, u[i]);
      FirstIndexOfPrefix(vs, |vs| - 1, u[j]);
    }
  }

  /** The kept texts appear in the order of their first occurrences. */
  lemma {:induction false} DedupFirstOccurrenceOrder(vs: seq<string>)
    ensures FirstOccurrenceOrder(vs, Dedup(vs))
  {
    if |vs| > 0 {
      var front := vs[..|vs| - 1];
      var u := Dedup(front);
      var v := vs[|vs| - 1];
      DedupFirstOccurrenceOrder(front);
      OrderCarriesOver(vs, u);
      if v != "" && v !in u {
        AppendLaterOccurrence(vs, u, v);
      }
    }
  }

  /** Appending the last element, when it occurs nowhere earlier, keeps
      the order by first occurrence. */
  lemma AppendLaterOccurrence(vs: seq<string>, u: seq<string>, v: string)
    requires |vs| > 0 && v == vs[|vs| - 1] && v !in vs[..|vs| - 1]
    requires forall x :: x in u ==> x in vs[..|vs| - 1]
    requires FirstOccurrenceOrder(vs, u)
    ensures FirstOccurrenceOrder(vs, u + [v])
  {
    var r := u + [v];
    assert v in vs;
    assert FirstIndex(vs, v) == |vs| - 1;
    forall i, j | 0 <= i < j < |r|
      ensures r[i] in vs && r[j] in vs && FirstIndex(vs, r[i]) < FirstIndex(vs, r[j])
    {
      assert r[i] == u[i] && u[i] in u;
      if j < |u| {
        assert r[j] == u[j];
      } else {
        FirstIndexOfPrefix(vs, |vs| - 1, u[i]);
      }
    }
  }

  /** A list without empty texts or repeats passes through unchanged, so
      deduplicating twice is deduplicating once. */
  lemma {:induction false} DedupOfDistinct(vs: seq<string>)
    requires "" !in vs
    requires forall i, j :: 0 <= i < j < |vs| ==> vs[i] != vs[j]
    ensures Dedup(vs) == vs
  {
    if |vs| > 0 {
      var front := vs[..|vs| - 1];
      var v := vs[|vs| - 1];
      assert forall i, j :: 0 <= i < j < |front| ==> front[i] != front[j] by {
        forall i, j | 0 <= i < j < |front|
          ensures front[i] != front[j]
        {
          assert front[i] == vs[i] && front[j] == vs[j];
        }
      }
      assert "" !in front;
      DedupOfDistinct(front);
      assert v != "" by {
        assert vs[|vs| - 1] in vs;
      }
      assert v !in front;
      assert front + [v] == vs;
    }
  }

  lemma DedupIdempotent(vs: seq<string>)
    ensures Dedup(Dedup(vs)) == Dedup(vs)
  {
    DedupOfDistinct(Dedup(vs));
  }

  /** Python's `" ".join(xs)`. */
  function JoinSpace(xs: seq<string>): string {
    if |xs| == 0 then "" else if |xs| == 1 then xs[0] else xs[0] + " " + JoinSpace(xs[1..])
  }

  /** The Vision column: the first two kept captions joined by a space, or
      the fixed text when there is none. */
  function Vision(uniq: seq<string>): (r: string)
    ensures |uniq| == 0 ==> r == NoVisualChange
    ensures |uniq| == 1 ==> r == uniq[0]
    ensures |uniq| >= 2 ==> r == uniq[0] + " " + uniq[1]
  {
    if |uniq| == 0 then NoVisualChange
    else if |uniq| == 1 then JoinSpace(uniq[..1])
    else
      var two := uniq[..2];
      assert two[0] == uniq[0] && two[1..] == [uniq[1]];
      assert JoinSpace(two[1..]) == uniq[1];
      JoinSpace(two)
  }

  /** The row for one segment: its time reads back as the segment's start,
      its sound is the segment's text and its compliance column is empty. */
  function RowFor(seg: Segment, caps: seq<Caption>): (row: Row)
    ensures ParseMmss(row.time) == Some(seg.start)
    ensures row.sound == seg.text
    ensures row.compliance == ""
  {
    FormatMmssRoundTrip(seg.start);
    Row(FormatMmss(seg.start), seg.text, Vision(Dedup(Visible(seg, caps))), "")
  }

  /** The rows of `process_video_to_rows`, built the way its loop appends
      them: one per segment, in segment order. */
  function BuildRows(segments: seq<Segment>, caps: seq<Caption>): (rows: seq<Row>)
    ensures |rows| == |segments|
  {
    if |segments| == 0 then []
    else BuildRows(segments[..|segments| - 1], caps) + [RowFor(segments[|segments| - 1], caps)]
  }

  /** Row `i` is built from segment `i` and all the captions alone. */
  lemma {:induction false} BuildRowsAt(segments: seq<Segment>, caps: seq<Caption>, i: nat)
    requires i < |segments|
    ensures BuildRows(segments, caps)[i] == RowFor(segments[i], caps)
    decreases |segments|
  {
    var front := segments[..|segments| - 1];
    if i < |segments| - 1 {
      BuildRowsAt(front, caps, i);
      assert front[i] == segments[i];
    }
  }

  /** Rows of two runs of segments are the rows of each, one after the
      other. */
  lemma {:induction false} BuildRowsConcat(a: seq<Segment>, b: seq<Segment>, caps: seq<Caption>)
    ensures BuildRows(a + b, caps) == BuildRows(a, caps) + BuildRows(b, caps)
    decreases |b|
  {
    if |b| == 0 {
      Seqs.ConcatEmpty(a);
    } else {
      var front := b[..|b| - 1];
      Seqs.DropLastOfConcat(a, b);
      BuildRowsConcat(a, front, caps);
      BuildRowsSnoc(a + b, caps);
      BuildRowsSnoc(b, caps);
      Seqs.Associative(BuildRows(a, caps), BuildRows(front, caps), [RowFor(b[|b| - 1], caps)]);
    }
  }

  /** The rows of a non-empty run: those of all but its last segment, then
      the last segment's row. */
  lemma BuildRowsSnoc(segments: seq<Segment>, caps: seq<Caption>)
    requires |segments| > 0
    ensures BuildRows(segments, caps)
            == BuildRows(segments[..|segments| - 1], caps) + [RowFor(segments[|segments| - 1], caps)]
  {
  }

  /** The Vision column holds the fixed text when no caption in range has
      text, and otherwise starts with the text of a caption in range. */
  lemma RowVision(seg: Segment, caps: seq<Caption>)
    ensures (forall j :: 0 <= j < |caps| && InRange(seg, caps[j].second) ==> caps[j].text == "")
            ==> RowFor(seg, caps).vision == NoVisualChange
    ensures (exists j :: 0 <= j < |caps| && InRange(seg, caps[j].second) && caps[j].text != "")
            ==> exists j :: 0 <= j < |caps| && InRange(seg, caps[j].second) && caps[j].text != ""
                            && caps[j].text <= RowFor(seg, caps).vision
    ensures forall j :: FirstShown(seg, caps, j) && OnlyTextAfter(seg, caps, j) ==>
              RowFor(seg, caps).vision == caps[j].text
    ensures forall j, k :: FirstShown(seg, caps, j) && NextDistinctShown(seg, caps, j, k) ==>
              RowFor(seg, caps).vision == caps[j].text + " " + caps[k].text
  {
    VisionFirstTwo(seg, caps);
    RowVisionStarts(seg, caps);
  }

  /** The fixed text when no caption in the window has text, and
      otherwise a text starting with such a caption. */
  lemma RowVisionStarts(seg: Segment, caps: seq<Caption>)
    ensures (forall j :: 0 <= j < |caps| && InRange(seg, caps[j].second) ==> caps[j].text == "")
            ==> RowFor(seg, caps).vision == NoVisualChange
    ensures (exists j :: 0 <= j < |caps| && InRange(seg, caps[j].second) && caps[j].text != "")
            ==> exists j :: 0 <= j < |caps| && InRange(seg, caps[j].second) && caps[j].text != ""
                            && caps[j].text <= RowFor(seg, caps).vision
  {
    var vis := Visible(seg, caps);
    VisibleMembers(seg, caps);
    var uniq := Dedup(vis);
    if |uniq| > 0 {
      assert uniq[0] in uniq;
      var j :| 0 <= j < |caps| && InRange(seg, caps[j].second) && caps[j].text == uniq[0];
      assert caps[j].text <= Vision(uniq);
    } else {
      forall j | 0 <= j < |caps| && InRange(seg, caps[j].second)
        ensures caps[j].text == ""
      {
        assert caps[j].text in vis;
      }
    }
  }

  /** A caption shows in a segment when it lies in the window and has
      text. */
  predicate Shows(seg: Segment, c: Caption) {
    InRange(seg, c.second) && c.text != ""
  }

  /** Caption j is the first, in caption order, that shows in the
      segment. */
  predicate FirstShown(seg: Segment, caps: seq<Caption>, j: int) {
    && 0 <= j < |caps| && Shows(seg, caps[j])
    && forall i :: 0 <= i < j ==> !Shows(seg, caps[i])
  }

  /** After caption j, every caption that shows repeats caption j's
      text. */
  predicate OnlyTextAfter(seg: Segment, caps: seq<Caption>, j: int)
    requires 0 <= j < |caps|
  {
    forall i :: j < i < |caps| && Shows(seg, caps[i]) ==> caps[i].text == caps[j].text
  }

  /** Caption k is the first after caption j that shows in the segment
      with a text other than caption j's. */
  predicate NextDistinctShown(seg: Segment, caps: seq<Caption>, j: int, k: int) {
    && 0 <= j < k < |caps| && Shows(seg, caps[k]) && caps[k].text != caps[j].text
    && forall i :: j < i < k && Shows(seg, caps[i]) ==> caps[i].text == caps[j].text
  }

  /** Deduplicating a list whose non-empty texts are all `t`, and which
      holds `t`, keeps `t` alone. */
  lemma DedupSingleText(vs: seq<string>, t: string)
    requires t != "" && t in vs
    requires forall i :: 0 <= i < |vs| ==> vs[i] == "" || vs[i] == t
    ensures Dedup(vs) == [t]
  {
    var r := Dedup(vs);
    forall i | 0 <= i < |r|
      ensures r[i] == t
    {
      assert r[i] in r;
      var k :| 0 <= k < |vs| && vs[k] == r[i];
    }
    AtMostOneDistinct(r, t);
    assert t in r;
  }

  /** A list without repeats whose elements all equal `t` has at most one
      element. */
  lemma AtMostOneDistinct(r: seq<string>, t: string)
    requires forall i :: 0 <= i < |r| ==> r[i] == t
    requires forall i, j :: 0 <= i < j < |r| ==> r[i] != r[j]
    ensures |r| <= 1
  {
    if |r| >= 2 {
      Seqs.FirstTwo(r);
      assert false;
    }
  }

  /** Appending a text to a list extends the deduplicated list exactly as
      the loop's last step does. */
  lemma DedupSnoc(vs: seq<string>, v: string)
    ensures Dedup(vs + [v]) == if v != "" && v !in Dedup(vs) then Dedup(vs) + [v] else Dedup(vs)
  {
    assert (vs + [v])[..|vs|] == vs;
  }

  /** Deduplicating a longer list keeps what the shorter one kept, in
      front. */
  lemma {:induction false} DedupPrefix(a: seq<string>, b: seq<string>)
    ensures Dedup(a) <= Dedup(a + b)
    decreases |b|
  {
    if |b| == 0 {
      assert a + b == a;
    } else {
      var front := b[..|b| - 1];
      DedupPrefix(a, front);
      assert a + b == (a + front) + [b[|b| - 1]];
      DedupSnoc(a + front, b[|b| - 1]);
    }
  }

  /** When only one text shows in the segment, the kept list is that
      text alone. */
  lemma VisionSingle(seg: Segment, caps: seq<Caption>, j: int)
    requires FirstShown(seg, caps, j) && OnlyTextAfter(seg, caps, j)
    ensures Dedup(Visible(seg, caps)) == [caps[j].text]
  {
    var vs := Visible(seg, caps);
    var t := caps[j].text;
    VisibleMembers(seg, caps);
    forall i | 0 <= i < |vs|
      ensures vs[i] == "" || vs[i] == t
    {
      assert vs[i] in vs;
      var k :| 0 <= k < |caps| && InRange(seg, caps[k].second) && caps[k].text == vs[i];
    }
    DedupSingleText(vs, t);
  }

  /** When caption k is the next distinct text after the first caption j,
      the kept list starts with their two texts. */
  lemma VisionPair(seg: Segment, caps: seq<Caption>, j: int, k: int)
    requires FirstShown(seg, caps, j) && NextDistinctShown(seg, caps, j, k)
    ensures [caps[j].text, caps[k].text] <= Dedup(Visible(seg, caps))
  {
    var vpre, u, vrest := Visible(seg, caps[..k]), caps[k].text, Visible(seg, caps[k + 1..]);
    DedupBeforeNext(seg, caps, j, k);
    DedupSnoc(vpre, u);
    VisibleSplit(seg, caps, k);
    DedupPrefix(vpre + [u], vrest);
  }

  /** Before the next distinct caption only the first caption's text is
      kept. */
  lemma DedupBeforeNext(seg: Segment, caps: seq<Caption>, j: int, k: int)
    requires FirstShown(seg, caps, j) && NextDistinctShown(seg, caps, j, k)
    ensures Dedup(Visible(seg, caps[..k])) == [caps[j].text]
  {
    var t := caps[j].text;
    var pre := caps[..k];
    var vpre := Visible(seg, pre);
    VisibleMembers(seg, pre);
    forall i | 0 <= i < |vpre|
      ensures vpre[i] == "" || vpre[i] == t
    {
      assert vpre[i] in vpre;
      var m :| 0 <= m < |pre| && InRange(seg, pre[m].second) && pre[m].text == vpre[i];
      assert pre[m] == caps[m];
    }
    assert pre[j] == caps[j];
    DedupSingleText(vpre, t);
  }

  /** A caption in the window splits the window's texts around its own. */
  lemma VisibleSplit(seg: Segment, caps: seq<Caption>, k: int)
    requires 0 <= k < |caps| && InRange(seg, caps[k].second)
    ensures Visible(seg, caps) == (Visible(seg, caps[..k]) + [caps[k].text]) + Visible(seg, caps[k + 1..])
  {
    var pre, rest := caps[..k], caps[k + 1..];
    assert [caps[k]][1..] == [];
    assert Visible(seg, [caps[k]]) == [caps[k].text];
    assert caps == pre + ([caps[k]] + rest);
    VisibleConcat(seg, pre, [caps[k]] + rest);
    VisibleConcat(seg, [caps[k]], rest);
    Seqs.Associative(Visible(seg, pre), [caps[k].text], Visible(seg, rest));
  }

  /** The Vision column is the first caption that shows, joined with the
      next distinct one when there is one. */
  lemma VisionFirstTwo(seg: Segment, caps: seq<Caption>)
    ensures forall j :: FirstShown(seg, caps, j) && OnlyTextAfter(seg, caps, j) ==>
              RowFor(seg, caps).vision == caps[j].text
    ensures forall j, k :: FirstShown(seg, caps, j) && NextDistinctShown(seg, caps, j, k) ==>
              RowFor(seg, caps).vision == caps[j].text + " " + caps[k].text
  {
    forall j | FirstShown(seg, caps, j) && OnlyTextAfter(seg, caps, j)
      ensures RowFor(seg, caps).vision == caps[j].text
    {
      VisionSingle(seg, caps, j);
    }
    forall j, k | FirstShown(seg, caps, j) && NextDistinctShown(seg, caps, j, k)
      ensures RowFor(seg, caps).vision == caps[j].text + " " + caps[k].text
    {
      VisionPair(seg, caps, j, k);
    }
  }

  /** `process_video_to_rows` after the external steps: the frames' seconds
      (which fail for an interval of 0), one caption per frame, and the
      rows. `caption` stands for the captioning model. */
  function VideoRows(framePaths: seq<string>, every: int, segments: seq<Segment>, caption: string -> string): (r: Result<seq<Row>, string>)
    ensures r.Failure? <==> every == 0
    ensures r.Success? ==> |r.value| == |segments|
  {
    match FrameSeconds(framePaths, every)
    case Failure(e) => Failure(e)
    case Success(frames) => Success(BuildRows(segments, Captions(frames, caption)))
  }

  /** Row `i` of a video's table: its time is segment i's start as
      `format_mmss` writes it, its sound is the segment's text, its
      compliance column is empty, and its Vision text comes from the frames
      at seconds j·every inside the segment: the fixed text when none of
      their captions has text, and otherwise starting with one of those
      captions. `VideoRowsVision` pins that text down. */
  lemma VideoRowsContent(framePaths: seq<string>, every: int, segments: seq<Segment>, caption: string -> string, i: nat)
    requires every != 0 && i < |segments|
    ensures var row := VideoRows(framePaths, every, segments, caption).value[i];
            && ParseMmss(row.time) == Some(segments[i].start)
            && row.sound == segments[i].text
            && row.compliance == ""
            && ((forall j :: 0 <= j < |framePaths| && InRange(segments[i], j * every) ==> caption(framePaths[j]) == "")
                ==> row.vision == NoVisualChange)
            && ((exists j :: 0 <= j < |framePaths| && InRange(segments[i], j * every) && caption(framePaths[j]) != "")
                ==> exists j :: && 0 <= j < |framePaths| && InRange(segments[i], j * every)
                               && caption(framePaths[j]) != "" && caption(framePaths[j]) <= row.vision)
  {
    var caps := Captions(FrameSeconds(framePaths, every).value, caption);
    FrameCaptions(framePaths, every, caption);
    BuildRowsAt(segments, caps, i);
    VisionOfFrames(segments[i], caps, framePaths, every, caption);
  }

  /** The Vision text of row `i`, with frame j's caption standing at
      second j·every: the caption of the first frame that shows in the
      segment, alone when every later frame that shows repeats it, and
      otherwise joined by a space with the next frame's caption that
      differs from it. */
  lemma VideoRowsVision(framePaths: seq<string>, every: int, segments: seq<Segment>, caption: string -> string, i: nat)
    requires every != 0 && i < |segments|
    ensures var vision := VideoRows(framePaths, every, segments, caption).value[i].vision;
            var caps := seq(|framePaths|, j requires 0 <= j < |framePaths| => Caption(j * every, caption(framePaths[j])));
            && (forall j :: FirstShown(segments[i], caps, j) && OnlyTextAfter(segments[i], caps, j) ==>
                  vision == caption(framePaths[j]))
            && (forall j, k :: FirstShown(segments[i], caps, j) && NextDistinctShown(segments[i], caps, j, k) ==>
                  vision == caption(framePaths[j]) + " " + caption(framePaths[k]))
  {
    var caps := seq(|framePaths|, j requires 0 <= j < |framePaths| => Caption(j * every, caption(framePaths[j])));
    RowOfFrames(framePaths, every, segments, caption, i);
    VisionFirstTwo(segments[i], caps);
  }

  /** Row `i` is the row for segment i over the frames' captions, frame j
      standing at second j·every. */
  lemma RowOfFrames(framePaths: seq<string>, every: int, segments: seq<Segment>, caption: string -> string, i: nat)
    requires every != 0 && i < |segments|
    ensures VideoRows(framePaths, every, segments, caption).value[i]
            == RowFor(segments[i], seq(|framePaths|, j requires 0 <= j < |framePaths| => Caption(j * every, caption(framePaths[j]))))
  {
    var caps := Captions(FrameSeconds(framePaths, every).value, caption);
    assert VideoRows(framePaths, every, segments, caption).value == BuildRows(segments, caps);
    BuildRowsAt(segments, caps, i);
    CaptionsOfFrames(framePaths, every, caption);
  }

  /** The captions of the frames are frame j's caption at second j·every. */
  lemma CaptionsOfFrames(framePaths: seq<string>, every: int, caption: string -> string)
    requires every != 0
    ensures Captions(FrameSeconds(framePaths, every).value, caption)
            == seq(|framePaths|, j requires 0 <= j < |framePaths| => Caption(j * every, caption(framePaths[j])))
  {
    FrameCaptions(framePaths, every, caption);
  }

  /** Caption j stands for second j·every and is frame j's caption. */
  lemma FrameCaptions(framePaths: seq<string>, every: int, caption: string -> string)
    requires every != 0
    ensures var caps := Captions(FrameSeconds(framePaths, every).value, caption);
            && |caps| == |framePaths|
            && forall j :: 0 <= j < |caps| ==> caps[j].second == j * every && caps[j].text == caption(framePaths[j])
  {
  }

  /** The Vision facts of one row, stated over the frames' positions. */
  lemma VisionOfFrames(seg: Segment, caps: seq<Caption>, framePaths: seq<string>, every: int, caption: string -> string)
    requires |caps| == |framePaths|
    requires forall j :: 0 <= j < |caps| ==> caps[j].second == j * every && caps[j].text == caption(framePaths[j])
    ensures (forall j :: 0 <= j < |framePaths| && InRange(seg, j * every) ==> caption(framePaths[j]) == "")
            ==> RowFor(seg, caps).vision == NoVisualChange
    ensures (exists j :: 0 <= j < |framePaths| && InRange(seg, j * every) && caption(framePaths[j]) != "")
            ==> exists j :: && 0 <= j < |framePaths| && InRange(seg, j * every)
                           && caption(framePaths[j]) != "" && caption(framePaths[j]) <= RowFor(seg, caps).vision
  {
    var vision := RowFor(seg, caps).vision;
    RowVision(seg, caps);
    if exists j :: 0 <= j < |framePaths| && InRange(seg, j * every) && caption(framePaths[j]) != "" {
      var j :| 0 <= j < |framePaths| && InRange(seg, j * every) && caption(framePaths[j]) != "";
      assert InRange(seg, caps[j].second) && caps[j].text != "";
      var k :| 0 <= k < |caps| && InRange(seg, caps[k].second) && caps[k].text != "" && caps[k].text <= vision;
      assert InRange(seg, k * every) && caption(framePaths[k]) <= vision;
    } else {
      forall j | 0 <= j < |caps| && InRange(seg, caps[j].second)
        ensures caps[j].text == ""
      {
        assert InRange(seg, j * every);
      }
    }
  }

  /** The captions of the frames, one per frame, each at its frame's
      second. */
  function Captions(frames: seq<Frame>, caption: string -> string): (caps: seq<Caption>)
    ensures |caps| == |frames|
    ensures forall i :: 0 <= i < |frames| ==> caps[i] == Caption(frames[i].second, caption(frames[i].path))
  {
    seq(|frames|, i requires 0 <= i < |frames| => Caption(frames[i].second, caption(frames[i].path)))
  }

  /** A segment covering seconds 10 to 14 with captions at seconds 8, 12
      and 15 keeps only the one at 12. */
  lemma CaptionWindowExample()
    ensures var seg := Segment(10, 14, "hello");
            var caps := [Caption(8, "a"), Caption(12, "b"), Caption(15, "c")];
            && Visible(seg, caps) == ["b"]
            && RowFor(seg, caps).vision == "b"
  {
    var seg := Segment(10, 14, "hello");
    var caps := [Caption(8, "a"), Caption(12, "b"), Caption(15, "c")];
    assert caps[1..] == [Caption(12, "b"), Caption(15, "c")];
    assert caps[1..][1..] == [Caption(15, "c")];
    assert caps[1..][1..][1..] == [];
    assert Dedup(["b"]) == ["b"];
  }

  /** A segment covering seconds 8 to 12 with captions "a" at 8 and "b"
      at 12 shows both, in caption order. */
  lemma CaptionPairExample()
    ensures RowFor(Segment(8, 12, "hello"), [Caption(8, "a"), Caption(12, "b")]).vision == "a b"
  {
    var seg := Segment(8, 12, "hello");
    var caps := [Caption(8, "a"), Caption(12, "b")];
    assert Shows(seg, caps[0]) && Shows(seg, caps[1]) && caps[0].text != caps[1].text;
    assert FirstShown(seg, caps, 0);
    assert NextDistinctShown(seg, caps, 0, 1);
    VisionPair(seg, caps, 0, 1);
    assert |Dedup(Visible(seg, caps))| >= 2;
  }
}

=== FILE: schedule.dfy ===
/** The progress percentages `process_job` writes. For a job of `n` files,
    file `k` (counted from 1) owns the slice that starts at
    `base = int(((k-1)/n)*100)` and is `step = int(100/n)` wide; its four
    stage updates sit at `int(step*0.2)`, `int(step*0.4)`, `int(step*0.6)`
    and `int(step*0.85)` above the base and its completion update at the
    full step. The source computes these in binary floating point; the
    model computes them exactly, as `⌊(k-1)·100/n⌋`, `⌊100/n⌋` and
    `⌊step·p/100⌋`. The step and the four stage offsets agree with the
    source for every step a job can have (0 to 100), but the float base can fall one below the
    exact one (for n = 100 and k = 30, `(29/100)*100` is
    28.999999999999996 and the base is 28, not 29). */
module Schedule {
  import opened Arith

  /** The progress written with "Job started". */
  const StartProgress: nat := 5

  /** The progress of the terminal update. */
  const FinalProgress: nat := 100

  /** The stage fractions 0.2, 0.4, 0.6 and 0.85, as percentages. */
  const AudioPercent: nat := 20
  const TranscribePercent: nat := 40
  const FramesPercent: nat := 60
  const DocxPercent: nat := 85

  function Base(k: nat, n: nat): nat
    requires 1 <= k <= n
  {
    (k - 1) * 100 / n
  }

  function Step(n: nat): nat
    requires 1 <= n
  {
    100 / n
  }

  /** `base + int(step * fraction)` for a fraction given in percent: a
      value in file `k`'s slice, from its start `⌊(k-1)·100/n⌋` up to the
      file's completion value. */
  function StageValue(k: nat, n: nat, percent: nat): (v: nat)
    requires 1 <= k <= n
    ensures (k - 1) * 100 / n <= v
    ensures percent <= 100 ==> v <= Completion(k, n)
  {
    var s := Step(n);
    assert percent <= 100 ==> s * percent / 100 <= s by {
      if percent <= 100 {
        DivMonotone(s * percent, s * 100, 100);
        MulDivCancel(s, 100);
      }
    }
    Base(k, n) + s * percent / 100
  }

  /** `base + step`, written when file `k` is done. It does not pass the
      start `⌊k·100/n⌋` of the next file's slice, nor 100. */
  function Completion(k: nat, n: nat): (v: nat)
    requires 1 <= k <= n
    ensures v <= k * 100 / n
    ensures v <= FinalProgress
  {
    DivSumLower((k - 1) * 100, 100, n);
    assert (k - 1) * 100 + 100 == k * 100;
    DivMonotone(k * 100, 100 * n, n);
    MulDivCancel(100, n);
    Base(k, n) + Step(n)
  }

  // ---------------------------------------------------------------------------
  // Properties of the schedule

  /** Within one file the five values are non-decreasing. */
  lemma FileValuesNonDecreasing(k: nat, n: nat)
    requires 1 <= k <= n
    ensures StageValue(k, n, AudioPercent) <= StageValue(k, n, TranscribePercent)
    ensures StageValue(k, n, TranscribePercent) <= StageValue(k, n, FramesPercent)
    ensures StageValue(k, n, FramesPercent) <= StageValue(k, n, DocxPercent)
    ensures StageValue(k, n, DocxPercent) <= Completion(k, n)
  {
    var s := Step(n);
    DivMonotone(s * 20, s * 40, 100);
    DivMonotone(s * 40, s * 60, 100);
    DivMonotone(s * 60, s * 85, 100);
    DivMonotone(s * 85, s * 100, 100);
  }

  /** The completion of file k is at most the first stage value of file k+1. */
  lemma CompletionBeforeNextFile(k: nat, n: nat)
    requires 1 <= k < n
    ensures Completion(k, n) <= StageValue(k + 1, n, AudioPercent)
  {
  }

  /** The order of the values around file k's slice: its first stage
      value, its completion, the next file's first stage value, 100. */
  lemma SliceOrder(k: nat, n: nat)
    requires 1 <= k <= n
    ensures StageValue(k, n, AudioPercent) <= Completion(k, n) <= FinalProgress
    ensures k < n ==> Completion(k, n) <= StageValue(k + 1, n, AudioPercent) <= FinalProgress
  {
    FileValuesNonDecreasing(k, n);
    if k < n {
      CompletionBeforeNextFile(k, n);
      FileValuesNonDecreasing(k + 1, n);
    }
  }

  /** The first stage value of file 1 is ⌊0.2·⌊100/n⌋⌋; it is at least the
      "Job started" value 5 exactly for jobs of at most four files. */
  lemma StartBelowFirstStageIff(n: nat)
    requires 1 <= n
    ensures StartProgress <= StageValue(1, n, AudioPercent) <==> n <= 4
  {
    var s := Step(n);
    if n <= 4 {
      DivLowerBound(25, 100, n);
      DivMonotone(25 * 20, s * 20, 100);
    } else {
      assert s * n <= 100;
      assert s * 5 <= s * n;
      DivMonotone(s * 20, 20 * 20, 100);
    }
  }

  /** The last file's completion value is 100 only when n divides 100;
      otherwise only the terminal update reaches 100. */
  lemma LastCompletionIs100Iff(n: nat)
    requires 1 <= n
    ensures Completion(n, n) == FinalProgress <==> 100 % n == 0
  {
    var q, r := 100 / n, 100 % n;
    assert 100 == q * n + r && 0 <= r < n;
    assert (n - 1) * 100 == n * 100 - 100;
    if r == 0 {
      assert (n - 1) * 100 == (100 - q) * n;
      DivOfDecomposition((n - 1) * 100, n, 100 - q, 0);
    } else {
      assert (n - 1) * 100 == (99 - q) * n + (n - r);
      DivOfDecomposition((n - 1) * 100, n, 99 - q, n - r);
    }
  }
}

=== FILE: seqs.dfy ===
/** Small facts about sequence concatenation and slicing, stated once for
    every element type so that proofs about large contexts need not
    re-derive them. */
module Seqs {
  lemma HeadTail<T>(s: seq<T>)
    requires |s| > 0
    ensures [s[0]] + s[1..] == s
  {
  }

  lemma DropLastOfConcat<T>(a: seq<T>, b: seq<T>)
    requires |b| > 0
    ensures (a + b)[..|a + b| - 1] == a + b[..|b| - 1]
    ensures (a + b)[|a + b| - 1] == b[|b| - 1]
  {
  }

  lemma ConcatEmpty<T>(a: seq<T>)
    ensures a + [] == a && [] + a == a
  {
  }

  /** A sequence of two or more elements is its first two followed by the
      rest. */
  lemma FirstTwo<T>(s: seq<T>)
    ensures |s| >= 2 ==> s == [s[0], s[1]] + s[2..]
  {
  }

  lemma Associative<T>(a: seq<T>, b: seq<T>, c: seq<T>)
    ensures a + (b + c) == (a + b) + c
  {
  }
}

=== FILE: worker.dfy ===
/** `process_job` of `app/worker.py`: the worker walks the job's files in
    order, calls the four stage functions on each and reports progress
    through `update_progress`. The model returns the sequence of
    `update_progress` calls it makes. Each stage function is a parameter;
    it returns None where the Python call raises. The code catches
    nothing, so the first raise ends the job: no later update is written. */
module Worker {
  import opened Wrappers
  import Json
  import JobStore
  import PosixPath
  import Schedule

  /** The stage functions the worker calls: `extract_audio(video_path)`,
      `transcribe_audio(audio_path)`, `extract_frames(video_path,
      interval=...)` and `generate_docx(video_name, transcript, frames,
      output_dir)`. */
  datatype Stages<!Audio, !Transcript, !Frames> = Stages(
    extractAudio: string -> Option<Audio>,
    transcribeAudio: Audio -> Option<Transcript>,
    extractFrames: (string, int) -> Option<Frames>,
    generateDocx: (string, Transcript, Frames, string) -> Option<string>)

  /** How one file's pipeline ends: the stage (1 to 4) whose call raised,
      or the document path `generate_docx` returned. */
  datatype FileOutcome = Raised(stage: nat) | Produced(docxPath: string)

  /** The outcome of the stage calls for one video, without the updates. */
  function ProcessFile<Audio, Transcript, Frames>(
    stages: Stages<Audio, Transcript, Frames>, outputDir: string, frameInterval: int, videoPath: string
  ): (o: FileOutcome)
    ensures o.Raised? ==> 1 <= o.stage <= 4
  {
    match stages.extractAudio(videoPath)
    case None => Raised(1)
    case Some(audio) =>
      match stages.transcribeAudio(audio)
      case None => Raised(2)
      case Some(transcript) =>
        match stages.extractFrames(videoPath, frameInterval)
        case None => Raised(3)
        case Some(frames) =>
          match stages.generateDocx(PosixPath.Name(videoPath), transcript, frames, outputDir)
          case None => Raised(4)
          case Some(docxPath) => Produced(docxPath)
  }

  /** The first call: status, progress, message and done_files. */
  const JobStarted: JobStore.Update :=
    JobStore.Update(Some("running"), Some(Schedule.StartProgress), Some("Job started"), Some(0), None)

  /** A call before a stage: progress and message only. */
  function StageUpdate(progress: int, message: string): JobStore.Update {
    JobStore.Update(None, Some(progress), Some(message), None, None)
  }

  /** The call after file `k`: done_files and progress only. */
  function FileDone(k: nat, progress: int): JobStore.Update {
    JobStore.Update(None, Some(progress), None, Some(k), None)
  }

  /** The terminal call: status, progress, message and the result index. */
  function JobDone(results: seq<Json.ResultEntry>): JobStore.Update {
    JobStore.Update(Some("done"), Some(Schedule.FinalProgress), Some("All files processed"), None, Some(results))
  }

  /** Call `s` (from 0) of the five the worker makes for file `k` (from 1):
      the four stage announcements, then the file's completion. */
  function FileCall(videoPaths: seq<string>, k: nat, s: nat): (u: JobStore.Update)
    requires 1 <= k <= |videoPaths| && s < 5
    ensures u.status.None? && u.resultIndex.None?
    ensures u.message.Some? <==> s < 4
    ensures u.doneFiles.Some? <==> s == 4
    ensures s == 4 ==> u.doneFiles.value == k
    ensures u.progress.Some?
    ensures Schedule.StageValue(k, |videoPaths|, Schedule.AudioPercent) <= u.progress.value
            <= Schedule.Completion(k, |videoPaths|)
  {
    Schedule.FileValuesNonDecreasing(k, |videoPaths|);
    var n := |videoPaths|;
    var name := PosixPath.Name(videoPaths[k - 1]);
    if s == 0 then StageUpdate(Schedule.StageValue(k, n, Schedule.AudioPercent), "Extracting audio from " + name)
    else if s == 1 then StageUpdate(Schedule.StageValue(k, n, Schedule.TranscribePercent), "Transcribing " + name)
    else if s == 2 then StageUpdate(Schedule.StageValue(k, n, Schedule.FramesPercent), "Extracting frames from " + name)
    else if s == 3 then StageUpdate(Schedule.StageValue(k, n, Schedule.DocxPercent), "Generating DOCX for " + name)
    else FileDone(k, Schedule.Completion(k, n))
  }

  /** The five calls for file `k` (from 1) of a job, as written when all of
      its stages return. */
  function FileUpdates(videoPaths: seq<string>, k: nat): (us: seq<JobStore.Update>)
    requires 1 <= k <= |videoPaths|
    ensures |us| == 5
  {
    seq(5, s requires 0 <= s < 5 => FileCall(videoPaths, k, s))
  }

  /** The calls of files i+1..k when all of them complete. */
  function FileRange(videoPaths: seq<string>, i: nat, k: nat): (us: seq<JobStore.Update>)
    requires i <= k <= |videoPaths|
    ensures |us| == 5 * (k - i)
    decreases k - i
  {
    if i == k then [] else FileUpdates(videoPaths, i + 1) + FileRange(videoPaths, i + 1, k)
  }

  /** A run of (part of) the loop: the calls written, the result entries
      appended, and whether the loop ran to its end. */
  datatype Run = Run(updates: seq<JobStore.Update>, results: seq<Json.ResultEntry>, completed: bool)

  /** The result entry of a file that produced its document: the file's
      name and the path `generate_docx` returned. */
  function EntryOf(videoPath: string, o: FileOutcome): Json.ResultEntry
    requires o.Produced?
  {
    Json.ResultEntry(PosixPath.Name(videoPath), o.docxPath)
  }

  /** `results` holds one entry per file from index `i` on, in file
      order. */
  predicate ResultsMatch(videoPaths: seq<string>, outcomes: seq<FileOutcome>, i: nat, results: seq<Json.ResultEntry>)
    requires |outcomes| == |videoPaths| && i + |results| <= |videoPaths|
    decreases |results|
  {
    || |results| == 0
    || (&& outcomes[i].Produced?
        && results[0] == EntryOf(videoPaths[i], outcomes[i])
        && ResultsMatch(videoPaths, outcomes, i + 1, results[1..]))
  }

  /** Prepending file i's entry to the entries of the files after it. */
  lemma ResultsMatchCons(videoPaths: seq<string>, outcomes: seq<FileOutcome>, i: nat, rest: seq<Json.ResultEntry>)
    requires |outcomes| == |videoPaths| && i + 1 + |rest| <= |videoPaths|
    requires outcomes[i].Produced? && ResultsMatch(videoPaths, outcomes, i + 1, rest)
    ensures ResultsMatch(videoPaths, outcomes, i, [EntryOf(videoPaths[i], outcomes[i])] + rest)
  {
    var results := [EntryOf(videoPaths[i], outcomes[i])] + rest;
    assert results[1..] == rest;
  }

  /** Entry j of matching results is file i + j's entry. */
  lemma {:induction false} ResultsMatchAt(videoPaths: seq<string>, outcomes: seq<FileOutcome>, i: nat, results: seq<Json.ResultEntry>, j: nat)
    requires |outcomes| == |videoPaths| && i + |results| <= |videoPaths|
    requires ResultsMatch(videoPaths, outcomes, i, results)
    requires j < |results|
    ensures outcomes[i + j].Produced? && results[j] == EntryOf(videoPaths[i + j], outcomes[i + j])
    decreases j
  {
    if j > 0 {
      ResultsMatchAt(videoPaths, outcomes, i + 1, results[1..], j - 1);
      assert (i + 1) + (j - 1) == i + j;
    }
  }

  predicate StagesInRange(outcomes: seq<FileOutcome>) {
    forall j :: 0 <= j < |outcomes| && outcomes[j].Raised? ==> 1 <= outcomes[j].stage <= 4
  }

  /** The loop from file index `i` (from 0) on, given how each file's stage
      calls end. No file after the first one that raised is reached. */
  function RunFiles(videoPaths: seq<string>, outcomes: seq<FileOutcome>, i: nat): (r: Run)
    requires |outcomes| == |videoPaths| && i <= |videoPaths| && StagesInRange(outcomes)
    ensures i + |r.results| <= |videoPaths|
    ensures r.completed <==> i + |r.results| == |videoPaths|
    ensures ResultsMatch(videoPaths, outcomes, i, r.results)
    ensures !r.completed ==> outcomes[i + |r.results|].Raised?
    decreases |videoPaths| - i
  {
    if i == |videoPaths| then Run([], [], true)
    else if outcomes[i].Raised? then Run(FileUpdates(videoPaths, i + 1)[..outcomes[i].stage], [], false)
    else
      var rest := RunFiles(videoPaths, outcomes, i + 1);
      var entry := EntryOf(videoPaths[i], outcomes[i]);
      var results := [entry] + rest.results;
      ResultsMatchCons(videoPaths, outcomes, i, rest.results);
      Run(FileUpdates(videoPaths, i + 1) + rest.updates, results, rest.completed)
  }

  /** The whole job given each file's outcome: the start call, the loop,
      and the terminal call if the loop finished. The job completes exactly
      when every file produced a document. */
  function JobRun(videoPaths: seq<string>, outcomes: seq<FileOutcome>): (run: Run)
    requires |outcomes| == |videoPaths| && StagesInRange(outcomes)
    ensures run.completed <==> forall j :: 0 <= j < |outcomes| ==> outcomes[j].Produced?
    ensures |run.results| <= |videoPaths|
    ensures run.completed ==> |run.results| == |videoPaths|
    ensures ResultsMatch(videoPaths, outcomes, 0, run.results)
  {
    var files := RunFiles(videoPaths, outcomes, 0);
    assert !files.completed ==> outcomes[|files.results|].Raised?;
    assert files.completed ==> forall j :: 0 <= j < |outcomes| ==> outcomes[j].Produced? by {
      if files.completed {
        forall j | 0 <= j < |outcomes|
          ensures outcomes[j].Produced?
        {
          ResultsMatchAt(videoPaths, outcomes, 0, files.results, j);
        }
      }
    }
    Run([JobStarted] + files.updates + (if files.completed then [JobDone(files.results)] else []),
        files.results,
        files.completed)
  }

  /** Each file's outcome. Stage functions are pure here, so evaluating
      them for files the loop never reaches changes nothing. */
  function Outcomes<Audio, Transcript, Frames>(
    stages: Stages<Audio, Transcript, Frames>, videoPaths: seq<string>, outputDir: string, frameInterval: int
  ): (os: seq<FileOutcome>)
    ensures |os| == |videoPaths| && StagesInRange(os)
  {
    seq(|videoPaths|, j requires 0 <= j < |videoPaths| => ProcessFile(stages, outputDir, frameInterval, videoPaths[j]))
  }

  /** `process_job(video_paths, output_dir, frame_interval)`: the job
      completes exactly when every file's stage calls all return. */
  function ProcessJob<Audio, Transcript, Frames>(
    stages: Stages<Audio, Transcript, Frames>, videoPaths: seq<string>, outputDir: string, frameInterval: int
  ): (run: Run)
    ensures run.completed <==>
              forall j :: 0 <= j < |videoPaths| ==> ProcessFile(stages, outputDir, frameInterval, videoPaths[j]).Produced?
    ensures run.completed ==> |run.results| == |videoPaths|
  {
    var os := Outcomes(stages, videoPaths, outputDir, frameInterval);
    assert forall j :: 0 <= j < |videoPaths| ==> os[j] == ProcessFile(stages, outputDir, frameInterval, videoPaths[j]);
    JobRun(videoPaths, os)
  }
}

=== FILE: worker_trace.dfy ===
/** Properties of the calls `process_job` makes and of the job record they
    leave in the store, for every file list and every combination of stage
    outcomes. */
module WorkerTrace {
  import opened Wrappers
  import Decimal
  import opened JobStore
  import PosixPath
  import Schedule
  import opened Worker
  import Seqs

  /** Every call writes a progress value, and the values lie in lo..hi. */
  predicate ProgressBetween(us: seq<Update>, lo: int, hi: int) {
    forall j :: 0 <= j < |us| ==> us[j].progress.Some? && lo <= us[j].progress.value <= hi
  }

  /** The least progress value the loop writes from file index i (from 0)
      on: the first stage value of file i+1, or 100 once no file is left. */
  function LoopFloor(n: nat, i: nat): int {
    if i < n then Schedule.StageValue(i + 1, n, Schedule.AudioPercent) else Schedule.FinalProgress
  }

  /** Every call writes a progress value, and they never go down. */
  predicate ProgressNonDecreasing(us: seq<Update>) {
    && (forall j :: 0 <= j < |us| ==> us[j].progress.Some?)
    && (forall i, j :: 0 <= i <= j < |us| ==> us[i].progress.value <= us[j].progress.value)
  }

  /** Calls that leave status and result_index alone: the loop's calls. */
  predicate LoopCalls(us: seq<Update>) {
    forall j :: 0 <= j < |us| ==> us[j].status.None? && us[j].resultIndex.None?
  }

  lemma LoopCallsConcat(a: seq<Update>, b: seq<Update>)
    requires LoopCalls(a) && LoopCalls(b)
    ensures LoopCalls(a + b)
  {
    forall j | 0 <= j < |a + b|
      ensures (a + b)[j].status.None? && (a + b)[j].resultIndex.None?
    {
      if j < |a| { assert (a + b)[j] == a[j]; } else { assert (a + b)[j] == b[j - |a|]; }
    }
  }

  lemma ConcatNonDecreasing(a: seq<Update>, b: seq<Update>, lo: int, mid: int, hi: int)
    requires ProgressNonDecreasing(a) && ProgressBetween(a, lo, mid)
    requires ProgressNonDecreasing(b) && ProgressBetween(b, mid, hi)
    requires lo <= mid <= hi
    ensures ProgressNonDecreasing(a + b) && ProgressBetween(a + b, lo, hi)
  {
    var c := a + b;
    forall j | 0 <= j < |c|
      ensures c[j].progress.Some? && lo <= c[j].progress.value <= hi
    {
      if j < |a| { assert c[j] == a[j]; } else { assert c[j] == b[j - |a|]; }
    }
    forall i, j | 0 <= i <= j < |c|
      ensures c[i].progress.value <= c[j].progress.value
    {
      if j < |a| {
        assert c[i] == a[i] && c[j] == a[j];
      } else if i >= |a| {
        assert c[i] == b[i - |a|] && c[j] == b[j - |a|];
      } else {
        assert c[i] == a[i] && c[j] == b[j - |a|];
      }
    }
  }

  // ---------------------------------------------------------------------------
  // One file

  /** Calls whose progress values never go down from one call to the next
      never go down at all. */
  lemma StepwiseNonDecreasing(us: seq<Update>)
    requires forall j :: 0 <= j < |us| ==> us[j].progress.Some?
    requires forall j :: 0 < j < |us| ==> us[j - 1].progress.value <= us[j].progress.value
    ensures ProgressNonDecreasing(us)
  {
    forall i, j | 0 <= i <= j < |us|
      ensures us[i].progress.value <= us[j].progress.value
    {
      var m := i;
      while m < j
        invariant i <= m <= j
        invariant us[i].progress.value <= us[m].progress.value
      {
        m := m + 1;
      }
    }
  }

  /** Non-decreasing calls lie between the first and the last. */
  lemma NonDecreasingBetween(us: seq<Update>)
    requires |us| > 0 && ProgressNonDecreasing(us)
    ensures ProgressBetween(us, us[0].progress.value, us[|us| - 1].progress.value)
  {
  }

  lemma Widen(us: seq<Update>, lo: int, hi: int, lo': int, hi': int)
    requires ProgressBetween(us, lo, hi) && lo' <= lo && hi <= hi'
    ensures ProgressBetween(us, lo', hi')
  {
  }

  lemma PrefixProgress(us: seq<Update>, s: nat, lo: int, hi: int)
    requires s <= |us| && ProgressNonDecreasing(us) && ProgressBetween(us, lo, hi)
    ensures ProgressNonDecreasing(us[..s]) && ProgressBetween(us[..s], lo, hi)
  {
  }

  /** The five calls for file k: progress runs from the file's 20% stage
      value to its completion value without going down. */
  lemma FileUpdatesProgress(videoPaths: seq<string>, k: nat)
    requires 1 <= k <= |videoPaths|
    ensures var us := FileUpdates(videoPaths, k);
            && ProgressNonDecreasing(us)
            && ProgressBetween(us, Schedule.StageValue(k, |videoPaths|, Schedule.AudioPercent), Schedule.Completion(k, |videoPaths|))
  {
    var us := FileUpdates(videoPaths, k);
    Schedule.FileValuesNonDecreasing(k, |videoPaths|);
    forall j | 0 <= j < 5
      ensures us[j].progress.Some?
    {
      assert us[j] == FileCall(videoPaths, k, j);
    }
    forall j | 0 < j < 5
      ensures us[j - 1].progress.value <= us[j].progress.value
    {
      assert us[j - 1] == FileCall(videoPaths, k, j - 1);
      assert us[j] == FileCall(videoPaths, k, j);
    }
    StepwiseNonDecreasing(us);
    NonDecreasingBetween(us);
  }

  /** The five calls for file k leave status and result_index alone. */
  lemma FileUpdatesLoopCalls(videoPaths: seq<string>, k: nat)
    requires 1 <= k <= |videoPaths|
    ensures LoopCalls(FileUpdates(videoPaths, k))
  {
    var us := FileUpdates(videoPaths, k);
    forall j | 0 <= j < 5
      ensures us[j].status.None? && us[j].resultIndex.None?
    {
      assert us[j] == FileCall(videoPaths, k, j);
    }
  }

  /** Of the five calls for file k only the last writes done_files (= k)
      and it leaves the message alone; the DOCX stage message names the
      file. */
  lemma FileUpdatesFacts(videoPaths: seq<string>, k: nat)
    requires 1 <= k <= |videoPaths|
    ensures var us := FileUpdates(videoPaths, k);
            && (forall s :: 0 <= s < 4 ==> us[s].doneFiles.None? && us[s].message.Some?)
            && us[4].doneFiles == Some(k) && us[4].message.None?
            && us[4].progress == Some(Schedule.Completion(k, |videoPaths|))
            && us[3].message == Some("Generating DOCX for " + PosixPath.Name(videoPaths[k - 1]))
  {
    var us := FileUpdates(videoPaths, k);
    forall j | 0 <= j < 4
      ensures us[j].doneFiles.None? && us[j].message.Some?
    {
      assert us[j] == FileCall(videoPaths, k, j);
    }
  }

  /** After all five calls of file k: done_files is k, progress the file's
      completion value, and message still the DOCX stage's. */
  lemma FileUpdatesLastWrites(videoPaths: seq<string>, k: nat)
    requires 1 <= k <= |videoPaths|
    ensures var us := FileUpdates(videoPaths, k);
            && LastWrite(us, DoneFilesField) == Some(Decimal.IntToString(k))
            && LastWrite(us, ProgressField) == Some(Decimal.IntToString(Schedule.Completion(k, |videoPaths|)))
            && LastWrite(us, MessageField) == Some("Generating DOCX for " + PosixPath.Name(videoPaths[k - 1]))
            && LastWrite(us, StatusField) == None
            && LastWrite(us, ResultIndexField) == None
  {
    var us := FileUpdates(videoPaths, k);
    FileUpdatesFacts(videoPaths, k);
    LastWriteIsLatest(us, 4, DoneFilesField);
    LastWriteIsLatest(us, 4, ProgressField);
    LastWriteIsLatest(us, 3, MessageField);
    LastWriteAbsent(us, StatusField);
    LastWriteAbsent(us, ResultIndexField);
  }

  /** After the first s calls of file k (its stage s raised): the progress
      and message of call s, and no done_files write. */
  lemma PartialFileLastWrites(videoPaths: seq<string>, k: nat, s: nat)
    requires 1 <= k <= |videoPaths| && 1 <= s <= 4
    ensures var us := FileUpdates(videoPaths, k)[..s];
            var last := FileUpdates(videoPaths, k)[s - 1];
            && LastWrite(us, DoneFilesField) == None
            && LastWrite(us, ProgressField) == Written(last, ProgressField)
            && LastWrite(us, MessageField) == Written(last, MessageField)
            && LastWrite(us, StatusField) == None
            && LastWrite(us, ResultIndexField) == None
  {
    var us := FileUpdates(videoPaths, k)[..s];
    FileUpdatesFacts(videoPaths, k);
    LastWriteAbsent(us, DoneFilesField);
    LastWriteIsLatest(us, s - 1, ProgressField);
    LastWriteIsLatest(us, s - 1, MessageField);
    LastWriteAbsent(us, StatusField);
    LastWriteAbsent(us, ResultIndexField);
  }

  // ---------------------------------------------------------------------------
  // Several files

  lemma FileRangeUnfold(videoPaths: seq<string>, i: nat, k: nat)
    requires i < k <= |videoPaths|
    ensures FileRange(videoPaths, i, k) == FileUpdates(videoPaths, i + 1) + FileRange(videoPaths, i + 1, k)
  {
  }

  lemma {:induction false} FileRangeSplit(videoPaths: seq<string>, i: nat, j: nat, k: nat)
    requires i <= j <= k <= |videoPaths|
    ensures FileRange(videoPaths, i, k) == FileRange(videoPaths, i, j) + FileRange(videoPaths, j, k)
    decreases j - i
  {
    if i < j {
      FileRangeSplit(videoPaths, i + 1, j, k);
      FileRangeUnfold(videoPaths, i, k);
      FileRangeUnfold(videoPaths, i, j);
      Seqs.Associative(FileUpdates(videoPaths, i + 1), FileRange(videoPaths, i + 1, j), FileRange(videoPaths, j, k));
    } else {
      assert FileRange(videoPaths, i, j) == [];
    }
  }

  /** After files i+1..k have all completed (i < k), the record shows file
      k's completion; status and result_index were not written. */
  lemma FileRangeLastWrites(videoPaths: seq<string>, i: nat, k: nat)
    requires i < k <= |videoPaths|
    ensures var us := FileRange(videoPaths, i, k);
            && LastWrite(us, DoneFilesField) == Some(Decimal.IntToString(k))
            && LastWrite(us, ProgressField) == Some(Decimal.IntToString(Schedule.Completion(k, |videoPaths|)))
            && LastWrite(us, MessageField) == Some("Generating DOCX for " + PosixPath.Name(videoPaths[k - 1]))
            && LastWrite(us, StatusField) == None
            && LastWrite(us, ResultIndexField) == None
  {
    FileRangeLastFile(videoPaths, i, k);
    FileRangeLoopCalls(videoPaths, i, k);
    LoopCallsLastWrites(FileRange(videoPaths, i, k));
  }

  /** The fields file k's five calls write end the range with file k's
      values. */
  lemma FileRangeLastFile(videoPaths: seq<string>, i: nat, k: nat)
    requires i < k <= |videoPaths|
    ensures var us := FileRange(videoPaths, i, k);
            && LastWrite(us, DoneFilesField) == Some(Decimal.IntToString(k))
            && LastWrite(us, ProgressField) == Some(Decimal.IntToString(Schedule.Completion(k, |videoPaths|)))
            && LastWrite(us, MessageField) == Some("Generating DOCX for " + PosixPath.Name(videoPaths[k - 1]))
  {
    FileRangeSplit(videoPaths, i, k - 1, k);
    var front := FileRange(videoPaths, i, k - 1);
    var last := FileRange(videoPaths, k - 1, k);
    FileRangeUnfold(videoPaths, k - 1, k);
    Seqs.ConcatEmpty(FileUpdates(videoPaths, k));
    assert last == FileUpdates(videoPaths, k);
    FileUpdatesLastWrites(videoPaths, k);
    LastWriteConcat(front, last, DoneFilesField);
    LastWriteConcat(front, last, ProgressField);
    LastWriteConcat(front, last, MessageField);
  }

  /** Calls of the loop never write status or result_index. */
  lemma LoopCallsLastWrites(us: seq<Update>)
    requires LoopCalls(us)
    ensures LastWrite(us, StatusField) == None && LastWrite(us, ResultIndexField) == None
  {
    LastWriteAbsent(us, StatusField);
    LastWriteAbsent(us, ResultIndexField);
  }


  lemma {:induction false} FileRangeLoopCalls(videoPaths: seq<string>, i: nat, k: nat)
    requires i <= k <= |videoPaths|
    ensures LoopCalls(FileRange(videoPaths, i, k))
    decreases k - i
  {
    if i < k {
      FileUpdatesLoopCalls(videoPaths, i + 1);
      FileRangeLoopCalls(videoPaths, i + 1, k);
      FileRangeUnfold(videoPaths, i, k);
      LoopCallsConcat(FileUpdates(videoPaths, i + 1), FileRange(videoPaths, i + 1, k));
    }
  }

  /** The calls of the file that raised, if any: those before its failing
      stage. */
  function Pending(videoPaths: seq<string>, outcomes: seq<FileOutcome>, c: nat, completed: bool): seq<Update>
    requires |outcomes| == |videoPaths| && StagesInRange(outcomes)
    requires !completed ==> c < |videoPaths| && outcomes[c].Raised?
  {
    if completed then [] else FileUpdates(videoPaths, c + 1)[..outcomes[c].stage]
  }

  /** The loop from file i on makes the five calls of every file it
      completes, then the pending calls of the file that raised. */
  predicate LoopShape(videoPaths: seq<string>, outcomes: seq<FileOutcome>, i: nat)
    requires |outcomes| == |videoPaths| && i <= |videoPaths| && StagesInRange(outcomes)
  {
    var r := RunFiles(videoPaths, outcomes, i);
    r.updates == FileRange(videoPaths, i, i + |r.results|)
                 + Pending(videoPaths, outcomes, i + |r.results|, r.completed)
  }

  /** The loop's calls: the five calls of every completed file, then the
      calls of the file that raised, up to the one before its failing
      stage. */
  lemma {:induction false} RunFilesShape(videoPaths: seq<string>, outcomes: seq<FileOutcome>, i: nat)
    requires |outcomes| == |videoPaths| && i <= |videoPaths| && StagesInRange(outcomes)
    ensures LoopShape(videoPaths, outcomes, i)
    decreases |videoPaths| - i
  {
    if i == |videoPaths| {
      ShapeAtEnd(videoPaths, outcomes, i);
    } else if outcomes[i].Raised? {
      ShapeAtRaised(videoPaths, outcomes, i);
    } else {
      RunFilesShape(videoPaths, outcomes, i + 1);
      ShapeAtProduced(videoPaths, outcomes, i);
    }
  }

  lemma ShapeAtEnd(videoPaths: seq<string>, outcomes: seq<FileOutcome>, i: nat)
    requires |outcomes| == |videoPaths| && i == |videoPaths| && StagesInRange(outcomes)
    ensures LoopShape(videoPaths, outcomes, i)
  {
    RunFilesEnd(videoPaths, outcomes, i);
    assert FileRange(videoPaths, i, i) == [];
  }

  lemma ShapeAtRaised(videoPaths: seq<string>, outcomes: seq<FileOutcome>, i: nat)
    requires |outcomes| == |videoPaths| && i < |videoPaths| && StagesInRange(outcomes)
    requires outcomes[i].Raised?
    ensures LoopShape(videoPaths, outcomes, i)
  {
    var r := RunFiles(videoPaths, outcomes, i);
    RunFilesRaisedStep(videoPaths, outcomes, i);
    assert FileRange(videoPaths, i, i) == [];
    assert Pending(videoPaths, outcomes, i, false) == r.updates;
    assert r.updates == [] + r.updates;
  }

  /** The loop step for a file that produced its document, given the shape
      of the calls for the files after it. */
  lemma ShapeAtProduced(videoPaths: seq<string>, outcomes: seq<FileOutcome>, i: nat)
    requires |outcomes| == |videoPaths| && i < |videoPaths| && StagesInRange(outcomes)
    requires outcomes[i].Produced?
    requires LoopShape(videoPaths, outcomes, i + 1)
    ensures LoopShape(videoPaths, outcomes, i)
  {
    var r := RunFiles(videoPaths, outcomes, i);
    var rest := RunFiles(videoPaths, outcomes, i + 1);
    var c := i + |r.results|;
    RunFilesProducedStep(videoPaths, outcomes, i);
    assert c == i + 1 + |rest.results|;
    var pending := Pending(videoPaths, outcomes, c, r.completed);
    assert rest.updates == FileRange(videoPaths, i + 1, c) + pending;
    FileRangeUnfold(videoPaths, i, c);
    RegroupStep(r.updates, FileUpdates(videoPaths, i + 1), rest.updates,
                FileRange(videoPaths, i + 1, c), FileRange(videoPaths, i, c), pending);
  }

  lemma RegroupStep(updates: seq<Update>, file: seq<Update>, restUpdates: seq<Update>,
                    restRange: seq<Update>, range: seq<Update>, pending: seq<Update>)
    requires updates == file + restUpdates
    requires restUpdates == restRange + pending
    requires range == file + restRange
    ensures updates == range + pending
  {
  }

  /** The loop's progress values from file index i on never go down and
      stay between file i+1's first stage value and 100. */
  predicate LoopProgress(videoPaths: seq<string>, outcomes: seq<FileOutcome>, i: nat)
    requires |outcomes| == |videoPaths| && i <= |videoPaths| && StagesInRange(outcomes)
  {
    ProgressFrom(RunFiles(videoPaths, outcomes, i).updates, LoopFloor(|videoPaths|, i))
  }

  /** Progress values that never go down and stay between `lo` and 100. */
  predicate ProgressFrom(us: seq<Update>, lo: int) {
    ProgressNonDecreasing(us) && ProgressBetween(us, lo, Schedule.FinalProgress)
  }

  /** The loop's progress values never go down and stay between file i+1's
      first stage value and 100. */
  lemma {:induction false} RunFilesProgress(videoPaths: seq<string>, outcomes: seq<FileOutcome>, i: nat)
    requires |outcomes| == |videoPaths| && i <= |videoPaths| && StagesInRange(outcomes)
    ensures LoopProgress(videoPaths, outcomes, i)
    decreases |videoPaths| - i
  {
    if i < |videoPaths| {
      if outcomes[i].Raised? {
        RaisedFileProgress(videoPaths, outcomes, i);
      } else {
        RunFilesProgress(videoPaths, outcomes, i + 1);
        ProducedStepProgress(videoPaths, outcomes, i);
      }
    } else {
      RunFilesEnd(videoPaths, outcomes, i);
    }
  }

  lemma RunFilesEnd(videoPaths: seq<string>, outcomes: seq<FileOutcome>, i: nat)
    requires |outcomes| == |videoPaths| && i == |videoPaths| && StagesInRange(outcomes)
    ensures RunFiles(videoPaths, outcomes, i) == Run([], [], true)
  {
  }

  /** The loop step for a file whose stage raised. */
  lemma RaisedFileProgress(videoPaths: seq<string>, outcomes: seq<FileOutcome>, i: nat)
    requires |outcomes| == |videoPaths| && i < |videoPaths| && StagesInRange(outcomes)
    requires outcomes[i].Raised?
    ensures LoopProgress(videoPaths, outcomes, i)
  {
    var n := |videoPaths|;
    var file := FileUpdates(videoPaths, i + 1);
    var lo := Schedule.StageValue(i + 1, n, Schedule.AudioPercent);
    FileUpdatesProgress(videoPaths, i + 1);
    assert ProgressBetween(file, lo, Schedule.FinalProgress);
    assert RunFiles(videoPaths, outcomes, i).updates == file[..outcomes[i].stage];
    PrefixProgress(file, outcomes[i].stage, lo, Schedule.FinalProgress);
  }

  lemma RunFilesProducedStep(videoPaths: seq<string>, outcomes: seq<FileOutcome>, i: nat)
    requires |outcomes| == |videoPaths| && i < |videoPaths| && StagesInRange(outcomes)
    requires outcomes[i].Produced?
    ensures RunFiles(videoPaths, outcomes, i).updates
            == FileUpdates(videoPaths, i + 1) + RunFiles(videoPaths, outcomes, i + 1).updates
    ensures |RunFiles(videoPaths, outcomes, i).results| == 1 + |RunFiles(videoPaths, outcomes, i + 1).results|
    ensures RunFiles(videoPaths, outcomes, i).completed == RunFiles(videoPaths, outcomes, i + 1).completed
    ensures i + 1 == |videoPaths| ==> RunFiles(videoPaths, outcomes, i + 1).updates == []
  {
  }

  lemma RunFilesRaisedStep(videoPaths: seq<string>, outcomes: seq<FileOutcome>, i: nat)
    requires |outcomes| == |videoPaths| && i < |videoPaths| && StagesInRange(outcomes)
    requires outcomes[i].Raised?
    ensures RunFiles(videoPaths, outcomes, i) == Run(FileUpdates(videoPaths, i + 1)[..outcomes[i].stage], [], false)
  {
  }

  /** The loop step for a file whose stages all returned, given the facts
      for the files after it. */
  lemma ProducedStepProgress(videoPaths: seq<string>, outcomes: seq<FileOutcome>, i: nat)
    requires |outcomes| == |videoPaths| && i < |videoPaths| && StagesInRange(outcomes)
    requires outcomes[i].Produced?
    requires LoopProgress(videoPaths, outcomes, i + 1)
    ensures LoopProgress(videoPaths, outcomes, i)
  {
    RunFilesProducedStep(videoPaths, outcomes, i);
    ProducedStepFrom(videoPaths, i, RunFiles(videoPaths, outcomes, i).updates, RunFiles(videoPaths, outcomes, i + 1).updates);
  }

  lemma ProducedStepFrom(videoPaths: seq<string>, i: nat, us: seq<Update>, rest: seq<Update>)
    requires i < |videoPaths| && us == FileUpdates(videoPaths, i + 1) + rest
    requires ProgressFrom(rest, LoopFloor(|videoPaths|, i + 1))
    ensures ProgressFrom(us, LoopFloor(|videoPaths|, i))
  {
    FileUpdatesProgress(videoPaths, i + 1);
    ProducedFileProgress(|videoPaths|, i + 1, FileUpdates(videoPaths, i + 1), rest);
  }

  /** The loop step for a file whose stages all returned: its five calls,
      then those of the files after it. */
  lemma ProducedFileProgress(n: nat, k: nat, file: seq<Update>, rest: seq<Update>)
    requires 1 <= k <= n
    requires ProgressNonDecreasing(file)
    requires ProgressBetween(file, Schedule.StageValue(k, n, Schedule.AudioPercent), Schedule.Completion(k, n))
    requires ProgressFrom(rest, LoopFloor(n, k))
    ensures ProgressFrom(file + rest, Schedule.StageValue(k, n, Schedule.AudioPercent))
  {
    var lo := Schedule.StageValue(k, n, Schedule.AudioPercent);
    var done := Schedule.Completion(k, n);
    Schedule.SliceOrder(k, n);
    ConcatStep(file, rest, lo, done, LoopFloor(n, k), Schedule.FinalProgress);
  }

  lemma ConcatStep(a: seq<Update>, b: seq<Update>, lo: int, mid: int, next: int, hi: int)
    requires ProgressNonDecreasing(a) && ProgressBetween(a, lo, mid)
    requires ProgressNonDecreasing(b) && ProgressBetween(b, next, hi)
    requires lo <= mid <= next <= hi
    ensures ProgressNonDecreasing(a + b) && ProgressBetween(a + b, lo, hi)
  {
    Widen(b, next, hi, mid, hi);
    ConcatNonDecreasing(a, b, lo, mid, hi);
  }

  /** The loop never writes status or result_index. */
  lemma {:induction false} RunFilesLoopCalls(videoPaths: seq<string>, outcomes: seq<FileOutcome>, i: nat)
    requires |outcomes| == |videoPaths| && i <= |videoPaths| && StagesInRange(outcomes)
    ensures LoopCalls(RunFiles(videoPaths, outcomes, i).updates)
  {
    var r := RunFiles(videoPaths, outcomes, i);
    var c := i + |r.results|;
    var tail := Pending(videoPaths, outcomes, c, r.completed);
    RunFilesShape(videoPaths, outcomes, i);
    FileRangeLoopCalls(videoPaths, i, c);
    if !r.completed {
      FileUpdatesLoopCalls(videoPaths, c + 1);
    }
    assert LoopCalls(tail);
    LoopCallsConcat(FileRange(videoPaths, i, c), tail);
  }
}

=== FILE: wrappers.dfy ===
/** Option and Result types used across the model: `None` / `Failure` stand for
    a Python call that raised instead of returning. */
module Wrappers {

  datatype Option<+T> = None | Some(value: T)

  datatype Result<+R, +E> = Success(value: R) | Failure(error: E)
}
